=== FILE: README.md ===
# nano2d core, modelled in Dafny

nano2d is a small browser game engine in one JavaScript file. It has
sprites with frame animation, simple rigid-body physics, a scene, a game
loop, and three UI controls. This project models the engine's logic as
pure Dafny functions over immutable records. It then proves what that
logic guarantees:

- `geometry.dfy` (`Geometry`) holds the two rectangle tests. The sprite
  overlap test is strict. The point-in-box test, used by UI controls and
  sprite clicks, includes the edges.
- `input.dfy` (`Input`) holds the global input state: mouse flags, the
  touch-end flag, the pressed key codes and the "handled" set. It models
  the end-of-frame reset and the key listeners' effect on that state.
- `textfield.dfy` (`TextField`) holds the `TextInput` control. Its
  editor is a string plus a cursor, acted on by Backspace, the arrows and
  the insertion keys (`Key*`, `Digit*`, `Space`) under a length limit.
  The handled set makes a held key act only once. The file also models
  focus and the caret blink.
- `widgets.dfy` (`Widgets`) holds the `Button` control: the
  idle/hover/down choice and its click handler.
- `animation.dfy` (`Animation`) holds a sprite's frame counter: a
  timer-driven index, modulo the number of frames.
- `sprites.dfy` (`Sprites`) holds the sprite record and its constructor
  defaults. It also holds the per-frame motion integration (acceleration
  plus gravity) and the sprite's own update. Gravity starts at 600, but the
  engine exposes it as a settable field, so every update takes its current
  value as a parameter.
- `physics.dfy` (`Physics`) holds the collision pass. The physics-enabled
  sprites of the scene are paired, each unordered pair once, in loop
  order. Every pair whose boxes overlap exchanges an impulse along the
  line between the box centres, with restitution
  `min(eA, eB)`. The model gives the pass twice: as a fold over the pair
  list (`Pass`), and as the nested loops (`CollisionPass`). It proves the
  two equal.
- `scene.dfy` (`Scene`) holds the scene's `add`, `remove` and update.
- `game.dfy` (`Game`) holds one frame of the game loop: the collision
  pass, then every sprite's own update, then the input reset.

The model identifies sprites with object identity. A `World` holds every
sprite, indexed by a number. A scene is a list of those numbers. So a
sprite added twice is one object, exactly as in JavaScript: it is updated
twice per frame, and its pairing with itself changes nothing.

The JavaScript idioms are written out:

- `x || default` on numbers: a missing option and `0` both take the
  default.
- `slice` clamps its bounds.
- `replace` with a string pattern removes only the first occurrence.
- `(i + 1) % 0` yields `NaN`.

Three behaviours of the code may surprise a reader who expects a
conventional physics engine. The model follows the code in each:

- The collision pass has no positional correction and no friction.
- It does not skip pairs that are already separating. `SeparatingPairPushedTogether` shows the effect.
- The game loop runs the collision pass *before* the sprites integrate
  their motion.

## Model

| member | source | states |
|---|---|---|
| `Geometry.Collides` | nano2d.js:140-145 | The overlap test is strict: boxes whose widths, or whose heights, add up to nothing or less never collide. |
| `Geometry.Contains` | nano2d.js:260-262 | The point test includes the boundary: a box of non-negative size contains its four corners, and a box of negative width or height contains no point. |
| `Geometry.CollidesSymmetric` | nano2d.js:140-145 | The overlap test gives the same answer whichever sprite asks. |
| `Geometry.CollidesIffInteriorsMeet` | nano2d.js:140-145 | For boxes of positive size, the strict test holds exactly when the two open interiors share a point: it detects overlap of area, never mere contact. |
| `Geometry.TouchingEdgesDoNotCollide` | nano2d.js:140-145 | Boxes placed flush against each other, horizontally or vertically, do not collide in either order. |
| `Geometry.ContainsBoundary` | nano2d.js:260-262 | Every corner and every point of the four closed edges of a box is inside it. |
| `Geometry.ContainsIsClosedCollidesIsOpen` | nano2d.js:260-262 | For a box of non-negative size, a point is inside exactly when it is in the open interior or on one of the four edge segments, both defined independently of the test. A zero-size box at that point collides with the box only for interior points, so the click test and the overlap test differ exactly on the boundary. |
| `Input.Clear` | nano2d.js:66-70 | The reset drops `click`, `up` and touch-end. It keeps the mouse position and the held button. |
| `Input.ClearIdempotent` | nano2d.js:66-70 | Resetting twice is resetting once. |
| `Input.KeyDown` | nano2d.js:38 | A pressed code becomes pressed. The visiting order only ever grows at its end, by this code and only if no key event named it before, so earlier codes keep their places. |
| `Input.KeyUp` | nano2d.js:39 | Releasing a code un-presses it and removes it from the handled set, and no other code is affected. A code no key event named before joins the end of the visiting order; otherwise the order stays. |
| `Input.ReleaseFixesPlace` | nano2d.js:38-39 | A key released before its first press, then pressed after another new key, is still visited first. |
| `TextField.Slice` | nano2d.js:370-371 | Within bounds, the clamped `slice` is the subsequence. It is never longer than the string. |
| `TextField.RemoveFirst` | nano2d.js:384 | `replace` with a string pattern removes the pattern once when the string starts with it. Otherwise it removes one occurrence or nothing, and it removes nothing from a string shorter than the pattern. |
| `TextField.RemoveFirstAt` | nano2d.js:384 | When the first occurrence of the pattern starts at `i`, `replace` removes exactly that occurrence and keeps the text before and after it. |
| `TextField.RemoveFirstNowhere` | nano2d.js:384 | A string in which the pattern occurs nowhere is left unchanged. |
| `TextField.RemoveFirstAbsent` | nano2d.js:384 | A string in which the pattern's first letter never occurs is left unchanged by `replace`. This is why digit codes survive it whole. |
| `TextField.InsertedText` | nano2d.js:382-384 | Space inserts a blank, and a letter code inserts what follows `Key`. Under the corrected map a digit code inserts what follows `Digit`. |
| `TextField.InsertedTextOf` | nano2d.js:382-384 | A letter code inserts its letter, and Space inserts a blank. A digit code inserts the whole code as written, and its digit under the corrected map. The text is never empty. |
| `TextField.ApplyKey` | nano2d.js:368-387 | For browser-shaped codes, every key keeps the cursor between 0 and the text length. Only Backspace and the insertion keys change the text. Unknown codes change nothing. A full field refuses insertion. |
| `TextField.BackspaceAtStart` | nano2d.js:368-369 | Backspace with the cursor at 0 changes nothing. |
| `TextField.BackspaceDeletesOne` | nano2d.js:368-373 | Elsewhere, Backspace removes exactly the character before the cursor, and the cursor follows. The characters before it keep their places, and those after it shift left by one. |
| `TextField.ArrowLeftClamps` | nano2d.js:375-376 | ArrowLeft moves the cursor one place left and stops at 0. The text is unchanged. |
| `TextField.ArrowRightClamps` | nano2d.js:378-379 | ArrowRight moves the cursor one place right and stops at the end of the text. The text is unchanged. |
| `TextField.ArrowsInverse` | nano2d.js:375-379 | Away from the clamped ends, ArrowLeft and ArrowRight undo each other. |
| `TextField.InsertAtCursor` | nano2d.js:381-387 | With room left, an insertion key puts its text at the cursor, keeps the text on both sides, and advances the cursor by exactly one. |
| `TextField.BackspaceUndoesInsert` | nano2d.js:368-387 | Backspace right after a one-character insertion restores the editor. This covers letters and Space, and digits under the corrected map. |
| `TextField.LetterKeepsLimit` | nano2d.js:382-387 | Letter keys and Space never push the text past `maxLength`. |
| `TextField.IntendedKeepsLimit` | nano2d.js:382-387 | Under the corrected key map, no key pushes the text past `maxLength`. |
| `TextField.DigitInsertsCode` | nano2d.js:382-387 | As written, Digit5 in an empty field limited to 1 character inserts "Digit5", so the limit is broken. |
| `TextField.BareKeyCodeBreaksCursor` | nano2d.js:382-386 | The code "Key" inserts nothing but advances the cursor past the text. This is why the cursor invariant is stated for browser-shaped codes. |
| `TextField.ApplyKeys` | nano2d.js:365-387 | Codes acting one after another keep the cursor invariant for browser-shaped codes. Codes that are neither Backspace nor insertion keys leave the text alone. |
| `TextField.ApplyKeysAppend` | nano2d.js:365-387 | Acting on two runs of codes is acting on the first run, then on the second. |
| `TextField.KeyPass` | nano2d.js:365-387 | One visit marks every pressed code as handled. A code acts exactly when it is pressed and was not yet handled, and then at most once. The codes act in visiting order, and the editor that results is exactly those keys applied one by one. When nothing acts, the editor is unchanged. The pass keeps the cursor invariant. |
| `TextField.HeldKeyActsOnce` | nano2d.js:365-367 | Visiting the same pressed keys again with the handled set left by the first visit acts on nothing and changes nothing. |
| `TextField.ReleasedKeyActsAgain` | nano2d.js:431 | After a key-up and a new key-down, a handled code acts again. |
| `TextField.NewTextInput` | nano2d.js:353-357 | A new field keeps the box it was given. It is empty and unfocused, and it shows the caret with the blink timer at zero. A configured non-zero limit is kept, and a missing or zero limit becomes 20. |
| `TextField.Update` | nano2d.js:359-399 | A click gives the field focus exactly when it lands inside the field. Without a click, focus stays. An unfocused field ignores keys and hides the caret, and its blink timer stands still. A focused one takes its editor, handled set and acting codes from the key pass, so its editor is the acting keys applied in order. It keeps the cursor invariant. The caret flips and its timer restarts once the timer exceeds 0.5 s. |
| `Widgets.NewButton` | nano2d.js:266-272 | A new button is idle. |
| `Widgets.UpdateButton` | nano2d.js:274-287 | A hidden button is untouched. A visible one is down when the mouse is inside and clicking or held, hovered when the mouse is inside otherwise, and idle when it is outside. The handler runs exactly on a click inside a visible button. |
| `Widgets.LookIsMemoryless` | nano2d.js:274-287 | The look depends on the mouse and the box only, never on the previous look. |
| `Animation.NewAnim` | nano2d.js:88-90 | Animation starts at frame 0 with timer 0, in range for any non-empty frame list. |
| `Animation.Advance` | nano2d.js:115 | `(i + 1) % n` stays below `n` for `n > 0`. It is `NaN` for `n = 0` and stays `NaN` once it is. |
| `Animation.Step` | nano2d.js:112-118 | Without frames, nothing changes. Once the timer reaches the frame speed, the frame advances by one modulo the count and the timer resets to 0. Otherwise only the timer grows. The index stays in range. |
| `Animation.StepsCycle` | nano2d.js:112-118 | When each step lasts at least the frame speed, `k` steps advance the frame by `k` modulo the count: the animation cycles through every frame. |
| `Animation.EmptyFramesGiveNaN` | nano2d.js:112-115 | An empty frame list turns the frame number into NaN at its first advance. |
| `Sprites.OrDefault` | nano2d.js:78-101 | `option \|\| fallback` gives a set non-zero option itself and the fallback otherwise. It is 0 only when the fallback is. |
| `Sprites.NewSprite` | nano2d.js:75-101 | Position, velocity, acceleration and frame speed take a set non-zero option and 0 otherwise. Size takes a set non-zero option and the texture's size otherwise. Mass and restitution are never 0, since 0 or a missing value becomes 1 and 0.8, and a non-negative configured mass gives a positive mass. The frame list, the physics flag and the click handler are kept, and the animation starts at frame 0. |
| `Sprites.Integrate` | nano2d.js:104-110 | An enabled sprite's velocity gains `(ax, ay + g) * dt`, `g` being the current gravity, then its position moves by the new velocity times `dt`. A disabled sprite is unchanged. |
| `Sprites.MotionClosedForm` | nano2d.js:106-109 | After `k` steps along one axis, velocity is `v0 + k*a*dt` and position is `x0 + k*v0*dt + k(k+1)/2 * a*dt²`. This is semi-implicit Euler in closed form. |
| `Sprites.IntegrateClosedForm` | nano2d.js:104-110 | An enabled sprite after `k` frames of `dt` matches the closed form on both axes, with gravity on the vertical one. |
| `Sprites.UpdateSprite` | nano2d.js:103-127 | A sprite's own update is its integrated motion with its animation stepped, and nothing else changes. Its handler runs exactly when it has one and the frame carries a click inside its box, edges included, at its new position. |
| `Physics.EnabledIds` | nano2d.js:152 | The bodies are exactly the physics-enabled scene entries. |
| `Physics.EnabledIdsSingleton` | nano2d.js:152 | A single entry is kept exactly when its sprite is physics-enabled. |
| `Physics.EnabledIdsAppend` | nano2d.js:152 | The filter works entry by entry: filtering two runs of a scene and joining the results is filtering the joined scene, so kept entries keep their order and repetitions. |
| `Physics.Pairs` | nano2d.js:153-154 | The loops visit exactly the pairs `i < j`, each once, in lexicographic order. |
| `Physics.PairsCount` | nano2d.js:153-154 | There are `n(n-1)/2` pairs. |
| `Physics.Direction` | nano2d.js:157-160 | The direction times the reported length is the centre offset. A reported length of 0 gives the offset itself. |
| `Physics.DirectionIsUnit` | nano2d.js:157-160 | With an exact `hypot`, the contact direction has length 1. Coincident centres give the zero direction, because a zero length is replaced by 1. |
| `Physics.ResolvePair` | nano2d.js:156-168 | A contact changes only the two bodies' velocities, A gaining `jn*u/mA` and B losing `jn*u/mB`. A sprite paired with itself is unchanged. |
| `Physics.MomentumUpdate` | nano2d.js:165-168 | Replacing one sprite changes the total momentum by exactly the difference of its own momentum. |
| `Physics.ResolveConservesMomentum` | nano2d.js:161-168 | Resolving a pair keeps the total momentum on each axis. |
| `Physics.RestitutionLaw` | nano2d.js:161-168 | With a unit direction, the closing speed after a contact is `-min(eA, eB)` times the closing speed before it. |
| `Physics.Impulse` | nano2d.js:164 | The impulse times the summed inverse masses cancels `(1 + e)` closing speeds, so a contact with no closing speed gets no impulse. |
| `Physics.SeparatingPairPushedTogether` | nano2d.js:156-168 | An overlapping pair that is already moving apart is turned around and made to approach, since the pass never checks separation. |
| `Physics.StepPair` | nano2d.js:155-169 | Visiting one pair leaves the world unchanged when the two boxes do not overlap. When they do overlap, the visit is exactly the pair's resolution. Velocities are the only change, and momentum is kept. |
| `Physics.StepPairRestitution` | nano2d.js:156-168 | A visit to two distinct overlapping bodies obeys the restitution law. Along a unit contact direction, their closing speed becomes minus the smaller restitution times its earlier value. |
| `Physics.EnabledBodiesReady` | nano2d.js:152-164 | When every physics-enabled scene entry has a positive mass, so does every body the pass visits. |
| `Physics.FoldPairs` | nano2d.js:153-170 | Visiting any list of pairs keeps the world's size, the bodies valid and their masses positive. |
| `Physics.FoldPairsKeeps` | nano2d.js:153-170 | Visiting any list of pairs changes velocities only, and conserves momentum on both axes. |
| `Physics.FoldLeavesIsolated` | nano2d.js:153-170 | A body outside the pass, or overlapping no other body of it, comes out of any sequence of visits unchanged. |
| `Physics.Pass` | nano2d.js:151-172 | The collision pass needs positive masses only for the physics-enabled scene entries, which are the masses it reads. It changes velocities only and conserves momentum on both axes. It leaves unchanged every sprite that is disabled, not in the scene, or overlapping no other enabled sprite. |
| `Physics.TwoBodyPass` | nano2d.js:152-169 | When exactly two distinct enabled bodies overlap, the whole pass is the resolution of that one pair. Their velocities change by the contact impulse, and every other sprite is unchanged. |
| `Physics.FoldConcat` | nano2d.js:153-170 | Visiting two lists of pairs in turn is visiting their concatenation. |
| `Physics.RowStep` | nano2d.js:154 | The inner loop visits the first pair of its row before the rest. |
| `Physics.VisitPair` | nano2d.js:155-169 | The inner loop's body resolves a pair in place exactly when the two boxes overlap. |
| `Physics.VisitRow` | nano2d.js:154-169 | The inner loop resolves the pairs `(i, j)` for `j > i` in order, updating in place. |
| `Physics.CollisionPass` | nano2d.js:151-172 | The nested loops compute exactly the collision pass. They conserve momentum and move no sprite. |
| `Scene.Add` | nano2d.js:178 | An added sprite goes last, and the earlier entries keep their places. |
| `Scene.Remove` | nano2d.js:179 | No occurrence of the removed sprite is left, and the scene never grows. |
| `Scene.RemoveKeepsOthers` | nano2d.js:179 | Every other sprite keeps its number of occurrences. Removing an absent sprite changes nothing. |
| `Scene.RemoveAppend` | nano2d.js:179 | Removal acts on each part of a scene separately, so the remaining sprites keep their order. |
| `Scene.RemoveIdempotent` | nano2d.js:179 | Removing twice is removing once. |
| `Scene.RemoveUndoesAdd` | nano2d.js:178-179 | Removing a just-added sprite undoes the add, and also drops its earlier occurrences. |
| `Scene.SceneUpdate` | nano2d.js:180 | The scene update touches only listed sprites and never changes a mass or a physics flag. Only clickable listed sprites report clicks, and none does without a click. |
| `Scene.UpdateOnce` | nano2d.js:180 | In a scene that lists each sprite once, every listed sprite gets exactly one own update, from its prior state. Its handler runs exactly when that update sees a click. |
| `Scene.DuplicateUpdatesTwice` | nano2d.js:178-180 | A sprite listed twice is updated twice in one frame. |
| `Game.Frame` | nano2d.js:242-251 | One frame keeps every mass, so the enabled entries' masses stay positive, and leaves unlisted sprites alone. It ends with the input reset, and fires no click without a click. |
| `Game.PhysicsBeforeUpdate` | nano2d.js:246-248 | A sprite's new position integrates the velocity the collision pass just gave it. For a sprite that overlaps nothing, this is its own velocity. |
| `Game.ClickSeenOnce` | nano2d.js:242-251 | A click reaches one frame only: the next frame, without new input, runs no click handler. |

## Left out

- Canvas setup, `resize` and every `draw` method: they only render.
- `Resource`, `AudioManager` and `Network`: they are thin wrappers over the browser's `Image`, `Audio` and `fetch`.
- The texture lookup on a frame change: this is a resource load. The model keeps only the frame index.
- `Input.init`: the listeners are asynchronous host events. The model keeps only their effect on the input state (`KeyDown`, `KeyUp`) and the end-of-frame reset.
- The mouse-down, mouse-move and touch-start listeners: the model takes the mouse record they leave as a parameter of each update.
- The timing in `Game.init`/`Game.loop` (`performance.now`, `requestAnimationFrame`, `fps`): `dt` is a parameter. The model keeps only the order of the steps.
- UI controls placed in the scene: the model's scene holds sprites. Buttons and text fields are updated through their own functions.
- `Joystick`: its update captures the mouse when a press lands inside it, releases it and re-centres the knob on mouse-up, and while captured clamps the knob to a circle with `Math.hypot` and `Math.min`. It is not modelled because its only output is that square-root clamp, which exact reals cannot reproduce without modelling the floating-point square root.
- `Particle`: its update only advances its age and moves it by its velocity; the age is read only when drawing it.
- Click handlers (`onClick` of sprites and buttons) are user callbacks. The model records which handlers run, and in which order. It assumes they do not change engine state during the frame; a handler that moves, adds or removes sprites is not modelled.
- Changing gravity in the middle of a frame: every update of a frame takes one gravity value as a parameter. Its starting value is `DefaultGravity`.
- Sprite fields used only for drawing (`name`, `texture`, `visible`, `rotation`, `scaleX`, `scaleY`, `alpha`), and the text field's `placeholder`.
- Floating point: all arithmetic is on exact reals, so rounding, infinities and NaN (other than the frame index) are not modelled.
- `Math.hypot` is a parameter of the pass. Facts that need it to be exact assume exactness explicitly (`ExactHypot`, or a unit direction).
- Negative masses: the constructor accepts a configured mass of `-1`. Against a body of mass `1` the summed inverse masses are 0, so the impulse divides by zero. Against other bodies the impulse's signs flip. The pass requires positive masses of the physics-enabled scene entries only, since those are the masses it reads.
- `nano2d_ver0.0.1.js` is not part of this model. It is an earlier draft that is not valid JavaScript, so it has no coherent behaviour to state.
- TextField.ApplyKey: the cursor invariant is stated for browser-shaped codes only (`Key` plus one character, `Digit` plus one digit). `BareKeyCodeBreaksCursor` shows that an arbitrary code starting with `Key` can break it.
- TextField.KeyPass: the cursor invariant is stated for browser-shaped codes only, for the same reason.
- TextField.Update: the cursor invariant is stated for browser-shaped codes only, for the same reason.
- Physics.RestitutionLaw: stated for a unit contact direction. With an inexact `hypot` the law is off by the direction's squared length.
- Physics.SeparatingPairPushedTogether: stated for a unit contact direction, for the same reason.

## Findings

| source | as written | input that shows it | evidently intended | confidence | as-written member | corrected member |
|---|---|---|---|---|---|---|
| nano2d.js:382-386 | A digit key inserts `code.replace('Key','')`, which is the whole code (e.g. "Digit5"). | An empty field with `maxLength` 1 and the key Digit5 ends up holding "Digit5", 6 characters over a limit of 1. | A digit key inserts its digit, one character, so the limit holds. | high, not executed | `TextField.DigitInsertsCode` | `TextField.IntendedKeepsLimit` |

=== FILE: animation.dfy ===
/** The frame animation of a sprite: a timer-driven index into its frame list. */
module Animation {
  import opened Wrappers

  /**
   * The current frame number. `NaN` is the value JavaScript produces when
   * the index is advanced modulo an empty frame list; it then stays `NaN`.
   */
  datatype FrameIndex = Frame(index: nat) | NaN

  /**
   * Animation state: the number of frames (`None` when the sprite has no
   * frame list), seconds per frame, the current frame and the time spent on it.
   */
  datatype Anim = Anim(frameCount: Option<nat>, frameSpeed: real, current: FrameIndex, timer: real) {

    /** The current frame is a valid position in a non-empty frame list. */
    predicate InRange() {
      frameCount.Some? && current.Frame? && current.index < frameCount.value
    }
  }

  /** A fresh animation: frame 0, timer 0; a missing speed means 0 (advance every frame). */
  function NewAnim(frameCount: Option<nat>, frameSpeed: Option<real>): (a: Anim)
    ensures a.current == Frame(0) && a.timer == 0.0
    ensures frameCount.Some? && frameCount.value > 0 ==> a.InRange()
  {
    Anim(frameCount, frameSpeed.GetOr(0.0), Frame(0), 0.0)
  }

  /** `(i + 1) % n` as JavaScript computes it, NaN included. */
  function Advance(i: FrameIndex, n: nat): (r: FrameIndex)
    ensures n == 0 || i == NaN ==> r == NaN
    ensures n > 0 && i.Frame? ==> r.Frame? && r.index < n
  {
    match i
    case NaN => NaN
    case Frame(k) => if n == 0 then NaN else Frame((k + 1) % n)
  }

  /**
   * One animation step of `dt` seconds. Without a frame list nothing
   * happens. Otherwise the timer grows by `dt`; once it reaches the frame
   * speed the frame advances by one, wrapping to 0 after the last, and the
   * timer restarts at 0.
   */
  function Step(a: Anim, dt: real): (r: Anim)
    ensures r.frameCount == a.frameCount && r.frameSpeed == a.frameSpeed
    ensures a.frameCount.None? ==> r == a
    ensures a.InRange() ==> r.InRange()
    ensures a.frameCount.Some? && a.timer + dt >= a.frameSpeed ==>
      r.timer == 0.0 && (a.InRange() ==> r.current == Frame((a.current.index + 1) % a.frameCount.value))
    ensures a.frameCount.Some? && a.timer + dt < a.frameSpeed ==> r.current == a.current && r.timer == a.timer + dt
  {
    match a.frameCount
    case None => a
    case Some(n) =>
      var timer := a.timer + dt;
      if timer >= a.frameSpeed then a.(current := Advance(a.current, n), timer := 0.0)
      else a.(timer := timer)
  }

  /** `k` consecutive steps of the same length. */
  function Steps(a: Anim, dt: real, k: nat): Anim
    decreases k
  {
    if k == 0 then a else Steps(Step(a, dt), dt, k - 1)
  }

  /**
   * When every step is at least as long as the frame speed, each step
   * advances the frame: after `k` steps the animation is `k` frames on,
   * modulo the number of frames, so it runs through the whole list and
   * returns to its first frame after `n` steps.
   */
  lemma {:induction false} StepsCycle(a: Anim, dt: real, k: nat)
    requires a.InRange() && a.timer >= 0.0 && dt >= 0.0 && dt >= a.frameSpeed
    ensures Steps(a, dt, k).InRange()
    ensures Steps(a, dt, k).current == Frame((a.current.index + k) % a.frameCount.value)
    decreases k
  {
    var n, i := a.frameCount.value, a.current.index;
    if k == 0 {
      ModUnique(i, n, 0, i);
    } else {
      var b := Step(a, dt);
      assert b.InRange() && b.current == Frame((i + 1) % n) && b.timer == 0.0;
      assert Steps(a, dt, k) == Steps(b, dt, k - 1);
      StepsCycle(b, dt, k - 1);
      ModAddOne(i, k - 1, n);
    }
  }

  /** Advancing by one and then by `k` is advancing by `k + 1`, modulo `n`. */
  lemma ModAddOne(i: nat, k: nat, n: nat)
    requires i < n
    ensures ((i + 1) % n + k) % n == (i + k + 1) % n
  {
    if i + 1 < n {
      ModUnique(i + 1, n, 0, i + 1);
    } else {
      ModUnique(n, n, 1, 0);
      var q, r := k / n, k % n;
      assert k == q * n + r;
      assert n + k == (q + 1) * n + r;
      ModUnique(n + k, n, q + 1, r);
    }
  }

  /** The remainder is determined by any quotient-remainder decomposition. */
  lemma ModUnique(x: int, n: int, d: int, r: int)
    requires n > 0 && 0 <= r < n && x == d * n + r
    ensures x % n == r
  {
    var d', r' := x / n, x % n;
    assert (d - d') * n == r' - r;
    if d - d' >= 1 {
      MulAtLeast(d - d', n);
    } else if d - d' <= -1 {
      MulAtLeast(d' - d, n);
    }
  }

  lemma MulAtLeast(a: int, n: int)
    requires a >= 1 && n > 0
    ensures a * n >= n
  {
  }

  /** An empty frame list (present but of length 0) turns the frame number into NaN on the first advance. */
  lemma EmptyFramesGiveNaN(a: Anim, dt: real)
    requires a.frameCount == Some(0) && a.timer + dt >= a.frameSpeed
    ensures Step(a, dt).current == NaN
  {
  }
}

=== FILE: game.dfy ===
/**
 * One frame of the game loop: the collision pass over the scene's sprites,
 * then the scene's update, then the end-of-frame input reset.
 */
module Game {
  import opened Input
  import opened Sprites
  import opened Physics
  import opened Scene

  /** The outcome of one frame: the world, the clicked scene entries, and the input left for the next frame. */
  datatype FrameStep = FrameStep(world: World, clicks: seq<nat>, input: MouseTouch)

  /**
   * One frame of the game loop: the collision pass over the scene's
   * sprites, then the scene's update, then the input reset. Positions are
   * therefore integrated from the velocities the pass has just resolved.
   */
  function Frame(w: World, scene: seq<nat>, p: MouseTouch, gravity: real, dt: real, hypot: (real, real) -> real): (r: FrameStep)
    requires ValidIds(w, scene) && EnabledMasses(w, scene)
    ensures |r.world| == |w| && EnabledMasses(r.world, scene)
    ensures forall k :: 0 <= k < |w| ==> r.world[k].mass == w[k].mass
    ensures r.input == Clear(p)
    ensures !p.mouse.click ==> r.clicks == []
    ensures forall k :: 0 <= k < |w| && k !in scene ==> r.world[k] == w[k]
  {
    var collided := Pass(w, scene, hypot);
    var updated := SceneUpdate(collided, scene, gravity, dt, p.mouse);
    FrameStep(updated.world, updated.clicks, Clear(p))
  }

  /**
   * A sprite listed once follows the order of the loop: its new position is
   * its position integrated with the velocity the collision pass gave it;
   * when it overlaps no other enabled sprite, that is its own velocity.
   */
  lemma PhysicsBeforeUpdate(w: World, scene: seq<nat>, p: MouseTouch, gravity: real, dt: real, hypot: (real, real) -> real, k: nat)
    requires ValidIds(w, scene) && EnabledMasses(w, scene) && k in scene
    requires forall i, j :: 0 <= i < j < |scene| ==> scene[i] != scene[j]
    ensures Frame(w, scene, p, gravity, dt, hypot).world[k].x == Integrate(Pass(w, scene, hypot)[k], gravity, dt).x
    ensures Frame(w, scene, p, gravity, dt, hypot).world[k].y == Integrate(Pass(w, scene, hypot)[k], gravity, dt).y
    ensures Isolated(w, EnabledIds(w, scene), k) ==>
      Frame(w, scene, p, gravity, dt, hypot).world[k].x == Integrate(w[k], gravity, dt).x
  {
    var collided := Pass(w, scene, hypot);
    UpdateOnce(collided, scene, gravity, dt, p.mouse, k);
  }

  /**
   * A click is delivered to one frame only: the frame after it, with no new
   * input event in between, runs no click handler.
   */
  lemma ClickSeenOnce(w: World, scene: seq<nat>, p: MouseTouch, gravity: real, dt1: real, dt2: real, hypot: (real, real) -> real)
    requires ValidIds(w, scene) && EnabledMasses(w, scene)
    ensures var first := Frame(w, scene, p, gravity, dt1, hypot);
      Frame(first.world, scene, first.input, gravity, dt2, hypot).clicks == []
  {
    var first := Frame(w, scene, p, gravity, dt1, hypot);
    assert ValidIds(first.world, scene);
  }
}

=== FILE: geometry.dfy ===
/**
 * Axis-aligned rectangles and the two hit tests of the engine: the strict
 * overlap test used between sprites, and the inclusive point test used for
 * clicks on sprites and UI controls.
 */
module Geometry {

  /** An axis-aligned box: top-left corner (x, y) and its extents. */
  datatype Rect = Rect(x: real, y: real, width: real, height: real) {

    function Right(): real { x + width }

    function Bottom(): real { y + height }

    /** Both extents are positive, as for any sprite with a visible size. */
    predicate Proper() { width > 0.0 && height > 0.0 }
  }

  /**
   * Overlap of two boxes as `Sprite.collidesWith` tests it: every
   * comparison is strict, so two boxes whose widths (or heights) add up to
   * nothing never collide.
   */
  predicate Collides(a: Rect, b: Rect)
    ensures Collides(a, b) ==> a.width + b.width > 0.0 && a.height + b.height > 0.0
    ensures a.width + b.width <= 0.0 ==> !Collides(a, b)
  {
    && a.x < b.Right()
    && a.Right() > b.x
    && a.y < b.Bottom()
    && a.Bottom() > b.y
  }

  /**
   * Point-in-box as `UIControl.contains` and the sprite click test check
   * it: the boundary counts, so a box of non-negative size contains its
   * corners, and a box of negative size contains nothing.
   */
  predicate Contains(r: Rect, px: real, py: real)
    ensures Contains(r, px, py) ==> r.width >= 0.0 && r.height >= 0.0
    ensures r.width >= 0.0 && r.height >= 0.0 && (px == r.x || px == r.Right()) && (py == r.y || py == r.Bottom()) ==> Contains(r, px, py)
  {
    px >= r.x && px <= r.Right() && py >= r.y && py <= r.Bottom()
  }

  /** A point in the open interior of a box (independent of the two tests above). */
  predicate Interior(r: Rect, px: real, py: real) {
    r.x < px < r.Right() && r.y < py < r.Bottom()
  }

  function Max(a: real, b: real): real { if a < b then b else a }

  function Min(a: real, b: real): real { if a < b then a else b }

  /** Collision does not depend on which sprite asks. */
  lemma CollidesSymmetric(a: Rect, b: Rect)
    ensures Collides(a, b) <==> Collides(b, a)
  {
  }

  /**
   * For boxes of positive size, the strict test holds exactly when the two
   * open interiors share a point: it is overlap of area, not of edges.
   */
  lemma CollidesIffInteriorsMeet(a: Rect, b: Rect)
    requires a.Proper() && b.Proper()
    ensures Collides(a, b) <==> exists px, py :: Interior(a, px, py) && Interior(b, px, py)
  {
    if Collides(a, b) {
      var lx, hx := Max(a.x, b.x), Min(a.Right(), b.Right());
      var ly, hy := Max(a.y, b.y), Min(a.Bottom(), b.Bottom());
      var px, py := (lx + hx) / 2.0, (ly + hy) / 2.0;
      assert Interior(a, px, py) && Interior(b, px, py);
    }
  }

  /** Two boxes placed flush side by side, or one flush on top of the other, do not collide. */
  lemma TouchingEdgesDoNotCollide(a: Rect, b: Rect)
    requires b.x == a.Right() || b.Right() == a.x || b.y == a.Bottom() || b.Bottom() == a.y
    ensures !Collides(a, b) && !Collides(b, a)
  {
  }

  /** Every point of the closed edges of a box, corners included, is inside it for `Contains`. */
  lemma ContainsBoundary(r: Rect)
    requires r.width >= 0.0 && r.height >= 0.0
    ensures Contains(r, r.x, r.y) && Contains(r, r.Right(), r.y)
    ensures Contains(r, r.x, r.Bottom()) && Contains(r, r.Right(), r.Bottom())
    ensures forall px :: r.x <= px <= r.Right() ==> Contains(r, px, r.y) && Contains(r, px, r.Bottom())
    ensures forall py :: r.y <= py <= r.Bottom() ==> Contains(r, r.x, py) && Contains(r, r.Right(), py)
  {
  }

  /** A point on one of the four edge segments of a box (independent of the two tests above). */
  predicate OnEdge(r: Rect, px: real, py: real) {
    || ((px == r.x || px == r.Right()) && r.y <= py <= r.Bottom())
    || ((py == r.y || py == r.Bottom()) && r.x <= px <= r.Right())
  }

  /**
   * The click test is the closure of the interior: for a box of
   * non-negative size, a point is inside for `Contains` exactly when it is
   * in the interior or on an edge. A point box (zero extents) collides with
   * `r` only at interior points, so a click on the edge is a hit that the
   * collision test would not report.
   */
  lemma ContainsIsClosedCollidesIsOpen(r: Rect, px: real, py: real)
    ensures r.width >= 0.0 && r.height >= 0.0 ==>
      (Contains(r, px, py) <==> Interior(r, px, py) || OnEdge(r, px, py))
    ensures Collides(Rect(px, py, 0.0, 0.0), r) <==> Interior(r, px, py)
  {
  }
}

=== FILE: input.dfy ===
/**
 * The global input state the widgets and sprites read: mouse flags, the
 * touch-end flag, the keyboard's pressed codes and the set of codes a text
 * field has already acted on.
 */
module Input {

  /** The mouse record: position, button held, and the one-shot `up` and `click` flags. */
  datatype Mouse = Mouse(x: real, y: real, down: bool, up: bool, click: bool)

  /** Mouse and touch input: the mouse record and the one-shot touch-end flag. */
  datatype MouseTouch = MouseTouch(mouse: Mouse, touchEnd: bool)

  /**
   * The keyboard as the key listeners leave it: `order` lists every code
   * any key event has named, in the order a `for … in` over the key object
   * visits them (the first event for a code decides its place, whether it
   * was a key-down or a key-up), and `down` holds the codes currently
   * pressed.
   */
  datatype Keyboard = Keyboard(order: seq<string>, down: set<string>)

  /**
   * The end-of-frame reset: the one-shot flags drop, while the mouse
   * position and the held button survive into the next frame.
   */
  function Clear(p: MouseTouch): (r: MouseTouch)
    ensures !r.mouse.click && !r.mouse.up && !r.touchEnd
    ensures r.mouse.x == p.mouse.x && r.mouse.y == p.mouse.y && r.mouse.down == p.mouse.down
  {
    MouseTouch(p.mouse.(up := false, click := false), false)
  }

  /** Clearing twice is clearing once. */
  lemma ClearIdempotent(p: MouseTouch)
    ensures Clear(Clear(p)) == Clear(p)
  {
  }

  /** The key-down listener: the code becomes pressed and joins the visiting order if it is new. */
  function KeyDown(k: Keyboard, code: string): (r: Keyboard)
    ensures code in r.down && code in r.order
    ensures r.down == k.down + {code}
    ensures forall c :: c in k.order ==> c in r.order
    ensures k.order <= r.order && |r.order| <= |k.order| + 1
    ensures code in k.order ==> r.order == k.order
  {
    Keyboard(if code in k.order then k.order else k.order + [code], k.down + {code})
  }

  /**
   * The two key-up listeners: the code is no longer pressed, and it leaves
   * the handled set so that its next press is acted on again. Storing
   * `false` for a code the key object has never seen creates its entry, so
   * such a code joins the visiting order here.
   */
  function KeyUp(k: Keyboard, handled: set<string>, code: string): (r: (Keyboard, set<string>))
    ensures code !in r.0.down && code !in r.1 && code in r.0.order
    ensures forall c :: c != code ==> (c in r.0.down <==> c in k.down) && (c in r.1 <==> c in handled)
    ensures k.order <= r.0.order && |r.0.order| <= |k.order| + 1
    ensures code in k.order ==> r.0.order == k.order
  {
    (Keyboard(if code in k.order then k.order else k.order + [code], k.down - {code}), handled - {code})
  }

  /**
   * A key released before it is first pressed (held while the page got
   * focus) is visited before a key first pressed after that release, even
   * when it is pressed again after that key.
   */
  lemma ReleaseFixesPlace()
    ensures var up := KeyUp(Keyboard([], {}), {}, "KeyB").0;
      var both := KeyDown(KeyDown(up, "KeyA"), "KeyB");
      both.order == ["KeyB", "KeyA"] && both.down == {"KeyA", "KeyB"}
  {
    assert "KeyA" != "KeyB";
  }
}

=== FILE: physics.dfy ===
/**
 * The collision pass: the physics-enabled sprites are paired in scene
 * order, each unordered pair once, and every overlapping pair exchanges a
 * normal impulse along the line between the box centres. The pass changes
 * velocities only; it moves nothing.
 */
module Physics {
  import opened Geometry
  import opened Sprites

  /** Every sprite, indexed by its identity; a scene lists identities, so one sprite may appear twice. */
  type World = seq<Sprite>

  predicate ValidIds(w: World, ids: seq<nat>) {
    forall i :: 0 <= i < |ids| ==> ids[i] < |w|
  }

  /**
   * Every physics-enabled entry of the scene has a positive mass. These are
   * the only masses the collision pass reads; disabled and unlisted sprites
   * may carry any mass.
   */
  predicate EnabledMasses(w: World, scene: seq<nat>) {
    forall i :: 0 <= i < |scene| && scene[i] < |w| && w[scene[i]].physicsEnabled ==> w[scene[i]].mass > 0.0
  }

  /** What the pass needs: the listed bodies exist and each has a positive mass. */
  predicate PassReady(w: World, bodies: seq<nat>) {
    ValidIds(w, bodies) && forall i :: 0 <= i < |bodies| ==> w[bodies[i]].mass > 0.0
  }

  /** `r` differs from `w` at most in velocities. */
  predicate SameExceptVelocities(w: World, r: World) {
    |r| == |w| && forall k :: 0 <= k < |w| ==> r[k] == w[k].(vx := r[k].vx, vy := r[k].vy)
  }

  /** The physics-enabled sprites of a scene, in scene order. */
  function EnabledIds(w: World, scene: seq<nat>): (r: seq<nat>)
    requires ValidIds(w, scene)
    ensures ValidIds(w, r) && |r| <= |scene|
    ensures forall id :: id in r <==> id in scene && w[id].physicsEnabled
  {
    if |scene| == 0 then []
    else
      var rest := EnabledIds(w, scene[1..]);
      assert forall id :: id in scene <==> id == scene[0] || id in scene[1..];
      if w[scene[0]].physicsEnabled then [scene[0]] + rest else rest
  }

  /** The enabled entries of a scene whose enabled entries have positive masses are ready for the pass. */
  lemma EnabledBodiesReady(w: World, scene: seq<nat>)
    requires ValidIds(w, scene) && EnabledMasses(w, scene)
    ensures PassReady(w, EnabledIds(w, scene))
  {
    var bodies := EnabledIds(w, scene);
    forall i | 0 <= i < |bodies|
      ensures w[bodies[i]].mass > 0.0
    {
      assert bodies[i] in scene;
    }
  }

  /** A single entry is kept exactly when its sprite takes part in physics. */
  lemma EnabledIdsSingleton(w: World, id: nat)
    requires id < |w|
    ensures EnabledIds(w, [id]) == if w[id].physicsEnabled then [id] else []
  {
    assert [id][1..] == [];
  }

  /**
   * The filter works entry by entry: filtering two runs of a scene and
   * joining the results is filtering the joined scene, so the kept
   * entries keep their scene order and their repetitions.
   */
  lemma {:induction false} EnabledIdsAppend(w: World, a: seq<nat>, b: seq<nat>)
    requires ValidIds(w, a) && ValidIds(w, b)
    ensures ValidIds(w, a + b)
    ensures EnabledIds(w, a + b) == EnabledIds(w, a) + EnabledIds(w, b)
    decreases |a|
  {
    assert forall id :: id in a + b ==> id in a || id in b;
    if |a| == 0 {
      assert a + b == b;
    } else {
      assert (a + b)[0] == a[0] && (a + b)[1..] == a[1..] + b;
      EnabledIdsAppend(w, a[1..], b);
    }
  }

  // ---------------------------------------------------------------------
  // Pair enumeration
  // ---------------------------------------------------------------------

  /** Strict lexicographic order on index pairs. */
  predicate LexLess(p: (nat, nat), q: (nat, nat)) {
    p.0 < q.0 || (p.0 == q.0 && p.1 < q.1)
  }

  /** The pairs `(i, j)`, `(i, j + 1)`, …, `(i, n - 1)`: one turn of the inner loop. */
  function Row(i: nat, j: nat, n: nat): (r: seq<(nat, nat)>)
    ensures |r| == (if j < n then n - j else 0)
    ensures forall k :: 0 <= k < |r| ==> r[k] == (i, j + k)
    ensures i < n ==> PairsWithin(r, n)
    decreases n - j
  {
    if j >= n then [] else [(i, j)] + Row(i, j + 1, n)
  }

  /** The pairs visited from outer index `i` on: bounded, and in strictly increasing order. */
  function PairsFrom(i: nat, n: nat): (r: seq<(nat, nat)>)
    ensures forall k :: 0 <= k < |r| ==> i <= r[k].0 < r[k].1 < n
    ensures forall k, l :: 0 <= k < l < |r| ==> LexLess(r[k], r[l])
    decreases n - i
  {
    if i >= n then []
    else
      var row, rest := Row(i, i + 1, n), PairsFrom(i + 1, n);
      var r := row + rest;
      assert forall k :: 0 <= k < |row| ==> r[k] == row[k];
      assert forall k :: |row| <= k < |r| ==> r[k] == rest[k - |row|];
      r
  }

  /** Every pair `i <= p.0 < p.1 < n` is visited from outer index `i` on. */
  lemma {:induction false} PairsFromComplete(i: nat, n: nat, p: (nat, nat))
    requires i <= p.0 < p.1 < n
    ensures p in PairsFrom(i, n)
    decreases n - i
  {
    var row, rest := Row(i, i + 1, n), PairsFrom(i + 1, n);
    assert PairsFrom(i, n) == row + rest;
    if p.0 == i {
      assert row[p.1 - (i + 1)] == p;
    } else {
      PairsFromComplete(i + 1, n, p);
    }
  }

  /**
   * The order in which the pass visits pairs of body positions: every
   * unordered pair `i < j < n` exactly once, in lexicographic order.
   */
  function Pairs(n: nat): (r: seq<(nat, nat)>)
    ensures forall p :: p in r <==> p.0 < p.1 < n
    ensures forall k, l :: 0 <= k < l < |r| ==> LexLess(r[k], r[l]) && r[k] != r[l]
  {
    var r := PairsFrom(0, n);
    forall p: (nat, nat) | p.0 < p.1 < n
      ensures p in r
    {
      PairsFromComplete(0, n, p);
    }
    r
  }

  /** The number of pairs is n(n-1)/2, as the nested loops give. */
  lemma PairsCount(n: nat)
    ensures 2 * |Pairs(n)| == n * (n - 1)
  {
    PairsFromCount(0, n);
  }

  lemma {:induction false} PairsFromCount(i: nat, n: nat)
    requires i <= n
    ensures 2 * |PairsFrom(i, n)| == (n - i) * (n - i - 1)
    decreases n - i
  {
    if i < n {
      PairsFromCount(i + 1, n);
      var m := n - i;
      assert |PairsFrom(i, n)| == (m - 1) + |PairsFrom(i + 1, n)|;
      assert 2 * (m - 1) + (m - 1) * (m - 2) == m * (m - 1);
    }
  }

  // ---------------------------------------------------------------------
  // One contact
  // ---------------------------------------------------------------------

  datatype Vec = Vec(x: real, y: real)

  function Dot(a: Vec, b: Vec): real { a.x * b.x + a.y * b.y }

  function Velocity(s: Sprite): Vec { Vec(s.vx, s.vy) }

  /** From the centre of A to the centre of B. */
  function CentreOffset(A: Sprite, B: Sprite): Vec {
    Vec((B.x + B.width / 2.0) - (A.x + A.width / 2.0), (B.y + B.height / 2.0) - (A.y + A.height / 2.0))
  }

  /**
   * The contact direction: the centre offset divided by its length, as
   * `hypot` reports it; a reported length of 0 is replaced by 1.
   */
  function Direction(A: Sprite, B: Sprite, hypot: (real, real) -> real): (r: Vec)
    ensures var n := CentreOffset(A, B); var d := hypot(n.x, n.y);
      && (d != 0.0 ==> r.x * d == n.x && r.y * d == n.y)
      && (d == 0.0 ==> r == n)
  {
    var n := CentreOffset(A, B);
    var d := hypot(n.x, n.y);
    var dist := if d == 0.0 then 1.0 else d;
    Vec(n.x / dist, n.y / dist)
  }

  /**
   * `hypot` is exact at `(x, y)`: it returns the non-negative square root
   * of `x * x + y * y`, which is positive unless both are zero.
   */
  predicate ExactHypot(hypot: (real, real) -> real, x: real, y: real) {
    var h := hypot(x, y);
    h >= 0.0 && h * h == x * x + y * y && ((x != 0.0 || y != 0.0) ==> h > 0.0)
  }

  /** With an exact `hypot`, the direction is a unit vector, or zero for coincident centres. */
  lemma DirectionIsUnit(A: Sprite, B: Sprite, hypot: (real, real) -> real)
    requires ExactHypot(hypot, CentreOffset(A, B).x, CentreOffset(A, B).y)
    ensures CentreOffset(A, B) != Vec(0.0, 0.0) ==> Dot(Direction(A, B, hypot), Direction(A, B, hypot)) == 1.0
    ensures CentreOffset(A, B) == Vec(0.0, 0.0) ==> Direction(A, B, hypot) == Vec(0.0, 0.0)
  {
    var n := CentreOffset(A, B);
    var h := hypot(n.x, n.y);
    if n != Vec(0.0, 0.0) {
      assert n.x != 0.0 || n.y != 0.0;
      var u := Direction(A, B, hypot);
      assert u == Vec(n.x / h, n.y / h);
      var q := h * h;
      calc {
        Dot(u, u);
      ==
        (n.x / h) * (n.x / h) + (n.y / h) * (n.y / h);
      ==
        (n.x * n.x + n.y * n.y) / q;
      ==
        q / q;
      ==
        1.0;
      }
    }
  }

  /** Speed at which A closes on B along `u`: positive when they approach. */
  function ClosingSpeed(A: Sprite, B: Sprite, u: Vec): real {
    Dot(Velocity(A), u) - Dot(Velocity(B), u)
  }

  /** The smaller restitution of the two bodies governs their contact. */
  function ContactRestitution(A: Sprite, B: Sprite): real {
    Min(A.restitution, B.restitution)
  }

  /**
   * The normal impulse magnitude for a contact along `u`: chosen so that,
   * times the summed inverse masses, it cancels `(1 + e)` closing speeds.
   */
  function Impulse(A: Sprite, B: Sprite, u: Vec): (r: real)
    requires A.mass > 0.0 && B.mass > 0.0
    ensures r * (1.0 / A.mass + 1.0 / B.mass) == -(1.0 + ContactRestitution(A, B)) * ClosingSpeed(A, B, u)
    ensures ClosingSpeed(A, B, u) == 0.0 ==> r == 0.0
  {
    var s := 1.0 / A.mass + 1.0 / B.mass;
    assert s > 0.0;
    (-(1.0 + ContactRestitution(A, B)) * ClosingSpeed(A, B, u)) / s
  }

  /** `s.v += p / s.mass` on both axes: how the first body of a contact takes the impulse. */
  function Gain(s: Sprite, p: Vec): Sprite
    requires s.mass > 0.0
  {
    s.(vx := s.vx + p.x / s.mass, vy := s.vy + p.y / s.mass)
  }

  /** `s.v -= p / s.mass` on both axes: how the second body of a contact takes the impulse. */
  function Lose(s: Sprite, p: Vec): Sprite
    requires s.mass > 0.0
  {
    s.(vx := s.vx - p.x / s.mass, vy := s.vy - p.y / s.mass)
  }

  /**
   * Resolving one overlapping pair: A gains `jn * u / mA`, then B (read
   * after A's update, which matters only when A and B are one sprite)
   * loses `jn * u / mB`.
   */
  function ResolvePair(w: World, a: nat, b: nat, hypot: (real, real) -> real): (r: World)
    requires a < |w| && b < |w| && w[a].mass > 0.0 && w[b].mass > 0.0
    ensures SameExceptVelocities(w, r)
    ensures forall k :: 0 <= k < |w| && k != a && k != b ==> r[k] == w[k]
    ensures a == b ==> r == w
    ensures a != b ==> r == w[a := Gain(w[a], ContactImpulse(w[a], w[b], hypot))][b := Lose(w[b], ContactImpulse(w[a], w[b], hypot))]
  {
    var p := ContactImpulse(w[a], w[b], hypot);
    var w1 := w[a := Gain(w[a], p)];
    assert a == b ==> p == Vec(0.0, 0.0) && w1[b] == w[a];
    w1[b := Lose(w1[b], p)]
  }

  /** The impulse vector `jn * u` of a contact. */
  function ContactImpulse(A: Sprite, B: Sprite, hypot: (real, real) -> real): Vec
    requires A.mass > 0.0 && B.mass > 0.0
  {
    var u := Direction(A, B, hypot);
    Scale(Impulse(A, B, u), u)
  }

  // ---------------------------------------------------------------------
  // Momentum
  // ---------------------------------------------------------------------

  datatype Axis = X | Y

  function MomentumOf(s: Sprite, axis: Axis): real {
    s.mass * (if axis == X then s.vx else s.vy)
  }

  /** Total momentum of the world along one axis. */
  function Momentum(w: World, axis: Axis): real
    decreases |w|
  {
    if |w| == 0 then 0.0 else Momentum(w[..|w| - 1], axis) + MomentumOf(w[|w| - 1], axis)
  }

  /** Replacing one sprite changes the total by exactly the difference of its momenta. */
  lemma {:induction false} MomentumUpdate(w: World, k: nat, s: Sprite, axis: Axis)
    requires k < |w|
    ensures Momentum(w[k := s], axis) == Momentum(w, axis) - MomentumOf(w[k], axis) + MomentumOf(s, axis)
    decreases |w|
  {
    var w' := w[k := s];
    var last := |w| - 1;
    if k == last {
      assert w'[..last] == w[..last];
    } else {
      assert w'[..last] == w[..last][k := s];
      MomentumUpdate(w[..last], k, s, axis);
    }
  }

  /** The component of a vector along an axis. */
  function Along(v: Vec, axis: Axis): real {
    if axis == X then v.x else v.y
  }

  lemma GainLoseMomentum(s: Sprite, p: Vec, axis: Axis)
    requires s.mass > 0.0
    ensures MomentumOf(Gain(s, p), axis) == MomentumOf(s, axis) + Along(p, axis)
    ensures MomentumOf(Lose(s, p), axis) == MomentumOf(s, axis) - Along(p, axis)
  {
    var q := Along(p, axis);
    assert s.mass * (q / s.mass) == q;
  }

  lemma GainLoseSpeed(s: Sprite, p: Vec, u: Vec)
    requires s.mass > 0.0
    ensures Dot(Velocity(Gain(s, p)), u) == Dot(Velocity(s), u) + Dot(p, u) / s.mass
    ensures Dot(Velocity(Lose(s, p)), u) == Dot(Velocity(s), u) - Dot(p, u) / s.mass
  {
  }

  /** Resolving a pair conserves the total momentum on each axis. */
  lemma ResolveConservesMomentum(w: World, a: nat, b: nat, hypot: (real, real) -> real, axis: Axis)
    requires a < |w| && b < |w| && w[a].mass > 0.0 && w[b].mass > 0.0
    ensures Momentum(ResolvePair(w, a, b, hypot), axis) == Momentum(w, axis)
  {
    if a != b {
      var p := ContactImpulse(w[a], w[b], hypot);
      var A', B' := Gain(w[a], p), Lose(w[b], p);
      GainLoseMomentum(w[a], p, axis);
      GainLoseMomentum(w[b], p, axis);
      MomentumUpdate(w, a, A', axis);
      MomentumUpdate(w[a := A'], b, B', axis);
    }
  }

  /**
   * With a unit direction, a resolved contact obeys the restitution law:
   * the closing speed afterwards is `-e` times the closing speed before,
   * `e` being the smaller restitution of the two.
   */
  lemma RestitutionLaw(w: World, a: nat, b: nat, hypot: (real, real) -> real)
    requires a < |w| && b < |w| && a != b && w[a].mass > 0.0 && w[b].mass > 0.0
    requires Dot(Direction(w[a], w[b], hypot), Direction(w[a], w[b], hypot)) == 1.0
    ensures var u := Direction(w[a], w[b], hypot);
      var r := ResolvePair(w, a, b, hypot);
      ClosingSpeed(r[a], r[b], u) == -ContactRestitution(w[a], w[b]) * ClosingSpeed(w[a], w[b], u)
  {
    var A, B := w[a], w[b];
    var u := Direction(A, B, hypot);
    var jn := Impulse(A, B, u);
    var r := ResolvePair(w, a, b, hypot);
    assert r[a] == Gain(A, Scale(jn, u)) && r[b] == Lose(B, Scale(jn, u));
    ImpulseRestitution(A, B, u, jn);
  }

  /** The restitution law for one contact along a unit direction `u`, for any impulse that solves its equation. */
  lemma ImpulseRestitution(A: Sprite, B: Sprite, u: Vec, jn: real)
    requires A.mass > 0.0 && B.mass > 0.0 && Dot(u, u) == 1.0
    requires jn * (1.0 / A.mass + 1.0 / B.mass) == -(1.0 + ContactRestitution(A, B)) * ClosingSpeed(A, B, u)
    ensures ClosingSpeed(Gain(A, Scale(jn, u)), Lose(B, Scale(jn, u)), u) == -ContactRestitution(A, B) * ClosingSpeed(A, B, u)
  {
    var p := Scale(jn, u);
    var va, vb := Dot(Velocity(A), u), Dot(Velocity(B), u);
    ScaleDot(jn, u);
    GainLoseSpeed(A, p, u);
    GainLoseSpeed(B, p, u);
    assert ClosingSpeed(Gain(A, p), Lose(B, p), u) == (va + jn / A.mass) - (vb - jn / B.mass);
    RestitutionArithmetic(va, vb, jn, A.mass, B.mass, ContactRestitution(A, B));
  }

  /** The vector `k * u`. */
  function Scale(k: real, u: Vec): Vec {
    Vec(k * u.x, k * u.y)
  }

  /** Scaling one side of a dot product scales the product. */
  lemma ScaleDot(k: real, u: Vec)
    ensures Dot(Scale(k, u), u) == k * Dot(u, u)
  {
  }

  /** The algebra behind the restitution law, on plain numbers. */
  lemma RestitutionArithmetic(va: real, vb: real, jn: real, ma: real, mb: real, e: real)
    requires ma > 0.0 && mb > 0.0
    requires jn * (1.0 / ma + 1.0 / mb) == -(1.0 + e) * (va - vb)
    ensures (va + jn / ma) - (vb - jn / mb) == -e * (va - vb)
  {
    assert jn / ma + jn / mb == jn * (1.0 / ma + 1.0 / mb);
  }

  /**
   * The pass never checks whether a pair is already separating: with a
   * unit direction and any positive restitution, a pair moving apart is
   * turned into a pair moving together.
   */
  lemma SeparatingPairPushedTogether(w: World, a: nat, b: nat, hypot: (real, real) -> real)
    requires a < |w| && b < |w| && a != b && w[a].mass > 0.0 && w[b].mass > 0.0
    requires Dot(Direction(w[a], w[b], hypot), Direction(w[a], w[b], hypot)) == 1.0
    requires ContactRestitution(w[a], w[b]) > 0.0
    requires ClosingSpeed(w[a], w[b], Direction(w[a], w[b], hypot)) < 0.0
    ensures var r := ResolvePair(w, a, b, hypot);
      ClosingSpeed(r[a], r[b], Direction(w[a], w[b], hypot)) > 0.0
  {
    RestitutionLaw(w, a, b, hypot);
    var e := ContactRestitution(w[a], w[b]);
    var c := ClosingSpeed(w[a], w[b], Direction(w[a], w[b], hypot));
    assert -e * c > 0.0;
  }

  // ---------------------------------------------------------------------
  // The pass
  // ---------------------------------------------------------------------

  predicate PairsWithin(ps: seq<(nat, nat)>, n: nat) {
    forall k :: 0 <= k < |ps| ==> ps[k].0 < n && ps[k].1 < n
  }

  /**
   * One visited pair: the two bodies exchange an impulse exactly when their
   * boxes overlap (`StepPairRestitution` states what the impulse does).
   */
  function StepPair(w: World, bodies: seq<nat>, p: (nat, nat), hypot: (real, real) -> real): (r: World)
    requires PassReady(w, bodies) && p.0 < |bodies| && p.1 < |bodies|
    ensures PassReady(r, bodies) && SameExceptVelocities(w, r)
    ensures Momentum(r, X) == Momentum(w, X) && Momentum(r, Y) == Momentum(w, Y)
    ensures var a, b := bodies[p.0], bodies[p.1];
      !Collides(w[a].Bounds(), w[b].Bounds()) ==> r == w
    ensures var a, b := bodies[p.0], bodies[p.1];
      Collides(w[a].Bounds(), w[b].Bounds()) ==> r == ResolvePair(w, a, b, hypot)
  {
    var a, b := bodies[p.0], bodies[p.1];
    if Collides(w[a].Bounds(), w[b].Bounds()) then
      ResolveConservesMomentum(w, a, b, hypot, X);
      ResolveConservesMomentum(w, a, b, hypot, Y);
      ResolvePair(w, a, b, hypot)
    else w
  }

  /**
   * A visited pair of distinct overlapping bodies obeys the restitution law
   * along a unit contact direction.
   */
  lemma StepPairRestitution(w: World, bodies: seq<nat>, p: (nat, nat), hypot: (real, real) -> real)
    requires PassReady(w, bodies) && p.0 < |bodies| && p.1 < |bodies|
    requires bodies[p.0] != bodies[p.1] && Collides(w[bodies[p.0]].Bounds(), w[bodies[p.1]].Bounds())
    requires var u := Direction(w[bodies[p.0]], w[bodies[p.1]], hypot); Dot(u, u) == 1.0
    ensures var a, b := bodies[p.0], bodies[p.1]; var u := Direction(w[a], w[b], hypot);
      var r := StepPair(w, bodies, p, hypot);
      ClosingSpeed(r[a], r[b], u) == -ContactRestitution(w[a], w[b]) * ClosingSpeed(w[a], w[b], u)
  {
    var a, b := bodies[p.0], bodies[p.1];
    assert StepPair(w, bodies, p, hypot) == ResolvePair(w, a, b, hypot);
    RestitutionLaw(w, a, b, hypot);
  }

  /** Visiting a list of pairs in order, each seeing the velocities the earlier ones left. */
  function FoldPairs(w: World, bodies: seq<nat>, ps: seq<(nat, nat)>, hypot: (real, real) -> real): (r: World)
    requires PassReady(w, bodies) && PairsWithin(ps, |bodies|)
    ensures PassReady(r, bodies) && |r| == |w|
    decreases |ps|
  {
    if |ps| == 0 then w
    else FoldPairs(StepPair(w, bodies, ps[0], hypot), bodies, ps[1..], hypot)
  }

  /** Any sequence of visits changes velocities only and conserves momentum on both axes. */
  lemma {:induction false} FoldPairsKeeps(w: World, bodies: seq<nat>, ps: seq<(nat, nat)>, hypot: (real, real) -> real)
    requires PassReady(w, bodies) && PairsWithin(ps, |bodies|)
    ensures SameExceptVelocities(w, FoldPairs(w, bodies, ps, hypot))
    ensures Momentum(FoldPairs(w, bodies, ps, hypot), X) == Momentum(w, X)
    ensures Momentum(FoldPairs(w, bodies, ps, hypot), Y) == Momentum(w, Y)
    decreases |ps|
  {
    if |ps| > 0 {
      var w1 := StepPair(w, bodies, ps[0], hypot);
      FoldPairsKeeps(w1, bodies, ps[1..], hypot);
    }
  }

  /** A body that takes part in no overlap with another body of the pass. */
  predicate Isolated(w: World, bodies: seq<nat>, k: nat)
    requires PassReady(w, bodies) && k < |w|
  {
    forall j :: 0 <= j < |bodies| && bodies[j] != k ==> !Collides(w[k].Bounds(), w[bodies[j]].Bounds())
  }

  /** Visiting any pairs leaves alone a body that is not in the pass or overlaps no other body of it. */
  lemma {:induction false} FoldLeavesIsolated(w: World, bodies: seq<nat>, ps: seq<(nat, nat)>, hypot: (real, real) -> real, k: nat)
    requires PassReady(w, bodies) && PairsWithin(ps, |bodies|) && k < |w|
    requires k !in bodies || Isolated(w, bodies, k)
    ensures FoldPairs(w, bodies, ps, hypot)[k] == w[k]
    decreases |ps|
  {
    if |ps| > 0 {
      var w1 := StepPair(w, bodies, ps[0], hypot);
      var a, b := bodies[ps[0].0], bodies[ps[0].1];
      CollidesSymmetric(w[a].Bounds(), w[b].Bounds());
      assert w1[k] == w[k];
      assert forall id :: 0 <= id < |w| ==> w1[id].Bounds() == w[id].Bounds();
      FoldLeavesIsolated(w1, bodies, ps[1..], hypot, k);
    }
  }

  /**
   * The collision pass of one frame. It changes velocities only, keeps
   * the total momentum on both axes, and leaves every sprite that is not
   * physics-enabled, or overlaps no other enabled sprite, exactly as it was.
   */
  function Pass(w: World, scene: seq<nat>, hypot: (real, real) -> real): (r: World)
    requires ValidIds(w, scene) && EnabledMasses(w, scene)
    ensures SameExceptVelocities(w, r) && EnabledMasses(r, scene)
    ensures Momentum(r, X) == Momentum(w, X) && Momentum(r, Y) == Momentum(w, Y)
    ensures forall k :: 0 <= k < |w| && (!w[k].physicsEnabled || k !in scene) ==> r[k] == w[k]
    ensures forall k :: 0 <= k < |w| && Isolated(w, EnabledIds(w, scene), k) ==> r[k] == w[k]
  {
    var bodies := EnabledIds(w, scene);
    EnabledBodiesReady(w, scene);
    var r := FoldPairs(w, bodies, Pairs(|bodies|), hypot);
    FoldPairsKeeps(w, bodies, Pairs(|bodies|), hypot);
    forall k | 0 <= k < |w| && (k !in bodies || Isolated(w, bodies, k))
      ensures r[k] == w[k]
    {
      FoldLeavesIsolated(w, bodies, Pairs(|bodies|), hypot, k);
    }
    r
  }

  /** Two bodies make the single pair `(0, 1)`. */
  lemma PairsOfTwo()
    ensures Pairs(2) == [(0, 1)]
  {
    assert Row(1, 2, 2) == [] && PairsFrom(2, 2) == [];
    assert PairsFrom(1, 2) == Row(1, 2, 2) + PairsFrom(2, 2);
    assert PairsFrom(0, 2) == Row(0, 1, 2) + PairsFrom(1, 2);
  }

  /**
   * With exactly two distinct enabled bodies whose boxes overlap, the pass
   * is the resolution of that one contact.
   */
  lemma {:induction false} TwoBodyPass(w: World, scene: seq<nat>, hypot: (real, real) -> real, a: nat, b: nat)
    requires ValidIds(w, scene) && EnabledMasses(w, scene)
    requires EnabledIds(w, scene) == [a, b] && a != b && a < |w| && b < |w|
    requires Collides(w[a].Bounds(), w[b].Bounds())
    ensures Pass(w, scene, hypot) == ResolvePair(w, a, b, hypot)
  {
    var bodies := EnabledIds(w, scene);
    EnabledBodiesReady(w, scene);
    PairsOfTwo();
    calc {
      Pass(w, scene, hypot);
      FoldPairs(w, bodies, [(0, 1)], hypot);
      FoldPairs(StepPair(w, bodies, (0, 1), hypot), bodies, [], hypot);
      StepPair(w, bodies, (0, 1), hypot);
    }
  }

  /** Visiting two lists of pairs one after the other is visiting their concatenation. */
  lemma {:induction false} FoldConcat(w: World, bodies: seq<nat>, xs: seq<(nat, nat)>, ys: seq<(nat, nat)>, hypot: (real, real) -> real)
    requires PassReady(w, bodies) && PairsWithin(xs, |bodies|) && PairsWithin(ys, |bodies|)
    ensures PairsWithin(xs + ys, |bodies|)
    ensures FoldPairs(w, bodies, xs + ys, hypot) == FoldPairs(FoldPairs(w, bodies, xs, hypot), bodies, ys, hypot)
    decreases |xs|
  {
    assert forall k :: 0 <= k < |xs + ys| ==> (xs + ys)[k] == if k < |xs| then xs[k] else ys[k - |xs|];
    if |xs| > 0 {
      assert (xs + ys)[0] == xs[0] && (xs + ys)[1..] == xs[1..] + ys;
      FoldConcat(StepPair(w, bodies, xs[0], hypot), bodies, xs[1..], ys, hypot);
    } else {
      assert xs + ys == ys;
    }
  }

  /** The first pair of a row is visited first. */
  lemma RowStep(w: World, bodies: seq<nat>, i: nat, j: nat, hypot: (real, real) -> real)
    requires PassReady(w, bodies) && i < j < |bodies|
    ensures PairsWithin(Row(i, j + 1, |bodies|), |bodies|)
    ensures FoldPairs(w, bodies, Row(i, j, |bodies|), hypot)
         == FoldPairs(StepPair(w, bodies, (i, j), hypot), bodies, Row(i, j + 1, |bodies|), hypot)
  {
    var row := Row(i, j, |bodies|);
    assert row[0] == (i, j) && row[1..] == Row(i, j + 1, |bodies|);
  }

  /** The body of the inner loop: the pair is resolved in place when the two boxes overlap. */
  method VisitPair(w: World, bodies: seq<nat>, i: nat, j: nat, hypot: (real, real) -> real) returns (r: World)
    requires PassReady(w, bodies) && i < j < |bodies|
    ensures r == StepPair(w, bodies, (i, j), hypot)
    ensures PassReady(r, bodies) && |r| == |w|
    ensures FoldPairs(r, bodies, Row(i, j + 1, |bodies|), hypot) == FoldPairs(w, bodies, Row(i, j, |bodies|), hypot)
  {
    var a, b := bodies[i], bodies[j];
    if Collides(w[a].Bounds(), w[b].Bounds()) {
      r := ResolvePair(w, a, b, hypot);
    } else {
      r := w;
    }
    RowStep(w, bodies, i, j, hypot);
  }

  /**
   * One turn of the outer loop: the inner index runs over the bodies after
   * `i`, and each overlapping pair is resolved in place.
   */
  method VisitRow(w: World, bodies: seq<nat>, i: nat, hypot: (real, real) -> real) returns (r: World)
    requires PassReady(w, bodies) && i < |bodies|
    ensures PassReady(r, bodies)
    ensures r == FoldPairs(w, bodies, Row(i, i + 1, |bodies|), hypot)
  {
    ghost var target := FoldPairs(w, bodies, Row(i, i + 1, |bodies|), hypot);
    ghost var rest := Row(i, i + 1, |bodies|);
    r := w;
    var j := i + 1;
    while j < |bodies|
      invariant i + 1 <= j <= |bodies|
      invariant PassReady(r, bodies)
      invariant rest == Row(i, j, |bodies|) && PairsWithin(rest, |bodies|)
      invariant FoldPairs(r, bodies, rest, hypot) == target
    {
      r := VisitPair(r, bodies, i, j, hypot);
      j := j + 1;
      rest := Row(i, j, |bodies|);
    }
  }

  /**
   * The pass as the nested loops run it: the outer index over the enabled
   * bodies, the inner one (in `VisitRow`) over the later ones, resolving
   * overlapping pairs in place.
   */
  method CollisionPass(w: World, scene: seq<nat>, hypot: (real, real) -> real) returns (r: World)
    requires ValidIds(w, scene) && EnabledMasses(w, scene)
    ensures r == Pass(w, scene, hypot)
    ensures Momentum(r, X) == Momentum(w, X) && Momentum(r, Y) == Momentum(w, Y)
    ensures forall k :: 0 <= k < |w| ==> r[k].x == w[k].x && r[k].y == w[k].y
  {
    var bodies := EnabledIds(w, scene);
    EnabledBodiesReady(w, scene);
    var n := |bodies|;
    ghost var target := FoldPairs(w, bodies, Pairs(n), hypot);
    ghost var rest := PairsFrom(0, n);
    r := w;
    var i := 0;
    while i < n
      invariant i <= n
      invariant PassReady(r, bodies)
      invariant rest == PairsFrom(i, n) && PairsWithin(rest, n)
      invariant FoldPairs(r, bodies, rest, hypot) == target
    {
      ghost var row, next := Row(i, i + 1, n), PairsFrom(i + 1, n);
      assert rest == row + next;
      FoldConcat(r, bodies, row, next, hypot);
      r := VisitRow(r, bodies, i, hypot);
      i := i + 1;
      rest := next;
    }
    assert rest == [];
  }
}

=== FILE: scene.dfy ===
/**
 * The scene: the list of sprites it updates, in order. `add` appends,
 * `remove` drops every occurrence, and the update runs each entry's own
 * sprite update in turn.
 */
module Scene {
  import opened Input
  import opened Sprites
  import opened Physics

  /** Appending a sprite: it becomes the last one updated, and nothing before it moves. */
  function Add(scene: seq<nat>, id: nat): (r: seq<nat>)
    ensures |r| == |scene| + 1 && r[|scene|] == id
    ensures forall i :: 0 <= i < |scene| ==> r[i] == scene[i]
  {
    scene + [id]
  }

  /** Removing a sprite: every occurrence goes, and the scene never grows. */
  function Remove(scene: seq<nat>, id: nat): (r: seq<nat>)
    ensures id !in r && |r| <= |scene|
    decreases |scene|
  {
    if |scene| == 0 then []
    else (if scene[0] == id then [] else [scene[0]]) + Remove(scene[1..], id)
  }

  /** Every other sprite keeps its number of occurrences; a sprite not in the scene removes nothing. */
  lemma {:induction false} RemoveKeepsOthers(scene: seq<nat>, id: nat)
    ensures forall x :: x != id ==> multiset(Remove(scene, id))[x] == multiset(scene)[x]
    ensures id !in scene ==> Remove(scene, id) == scene
    decreases |scene|
  {
    if |scene| > 0 {
      RemoveKeepsOthers(scene[1..], id);
      assert scene == [scene[0]] + scene[1..];
    }
  }

  /** Removal acts on each part of a scene separately, so the survivors keep their order. */
  lemma {:induction false} RemoveAppend(a: seq<nat>, b: seq<nat>, id: nat)
    ensures Remove(a + b, id) == Remove(a, id) + Remove(b, id)
    decreases |a|
  {
    if |a| == 0 {
      assert a + b == b;
    } else {
      var head := if a[0] == id then [] else [a[0]];
      calc {
        Remove(a + b, id);
      == { assert (a + b)[0] == a[0] && (a + b)[1..] == a[1..] + b; }
        head + Remove(a[1..] + b, id);
      == { RemoveAppend(a[1..], b, id); }
        head + (Remove(a[1..], id) + Remove(b, id));
      ==
        (head + Remove(a[1..], id)) + Remove(b, id);
      }
    }
  }

  /** Removing twice is removing once. */
  lemma RemoveIdempotent(scene: seq<nat>, id: nat)
    ensures Remove(Remove(scene, id), id) == Remove(scene, id)
  {
    RemoveKeepsOthers(Remove(scene, id), id);
  }

  /** Removing what was just added undoes the add, and also drops any earlier occurrence. */
  lemma RemoveUndoesAdd(scene: seq<nat>, id: nat)
    ensures Remove(Add(scene, id), id) == Remove(scene, id)
    ensures id !in scene ==> Remove(Add(scene, id), id) == scene
  {
    RemoveAppend(scene, [id], id);
    RemoveKeepsOthers(scene, id);
    assert Remove([id], id) == [];
  }

  /** The world after each scene entry's own update, and the clicked entries in handler order. */
  datatype SceneStep = SceneStep(world: World, clicks: seq<nat>)

  /**
   * The scene's update: every entry, in order, runs its sprite's own update
   * on the world as the earlier entries left it. A sprite listed twice is
   * one object and is updated twice.
   */
  function SceneUpdate(w: World, scene: seq<nat>, gravity: real, dt: real, m: Mouse): (r: SceneStep)
    requires ValidIds(w, scene)
    ensures |r.world| == |w|
    ensures forall k :: 0 <= k < |w| && k !in scene ==> r.world[k] == w[k]
    ensures forall k :: 0 <= k < |w| ==> r.world[k].mass == w[k].mass && r.world[k].physicsEnabled == w[k].physicsEnabled
    ensures forall c :: c in r.clicks ==> c in scene && c < |w| && w[c].clickable
    ensures !m.click ==> r.clicks == []
    decreases |scene|
  {
    if |scene| == 0 then SceneStep(w, [])
    else
      var id := scene[0];
      var step := UpdateSprite(w[id], gravity, dt, m);
      var rest := SceneUpdate(w[id := step.sprite], scene[1..], gravity, dt, m);
      SceneStep(rest.world, (if step.clicked then [id] else []) + rest.clicks)
  }

  /**
   * In a scene that lists each sprite once, every listed sprite is updated
   * exactly once, from its state before the update, and its handler runs
   * exactly when its own update sees a click inside it.
   */
  lemma {:induction false} UpdateOnce(w: World, scene: seq<nat>, gravity: real, dt: real, m: Mouse, k: nat)
    requires ValidIds(w, scene) && k in scene
    requires forall i, j :: 0 <= i < j < |scene| ==> scene[i] != scene[j]
    ensures SceneUpdate(w, scene, gravity, dt, m).world[k] == UpdateSprite(w[k], gravity, dt, m).sprite
    ensures k in SceneUpdate(w, scene, gravity, dt, m).clicks <==> UpdateSprite(w[k], gravity, dt, m).clicked
    decreases |scene|
  {
    var id := scene[0];
    var step := UpdateSprite(w[id], gravity, dt, m);
    var w1 := w[id := step.sprite];
    var rest := SceneUpdate(w1, scene[1..], gravity, dt, m);
    if id == k {
      assert k !in scene[1..] by {
        forall i | 0 <= i < |scene[1..]| ensures scene[1..][i] != k {
          assert scene[1..][i] == scene[i + 1];
        }
      }
      assert rest.world[k] == w1[k];
    } else {
      assert k in scene[1..];
      UpdateOnce(w1, scene[1..], gravity, dt, m, k);
    }
  }

  /** A scene listing one sprite twice runs that sprite's update twice in one frame. */
  lemma DuplicateUpdatesTwice(w: World, k: nat, gravity: real, dt: real, m: Mouse)
    requires k < |w|
    ensures SceneUpdate(w, [k, k], gravity, dt, m).world[k]
         == UpdateSprite(UpdateSprite(w[k], gravity, dt, m).sprite, gravity, dt, m).sprite
  {
    var w1 := w[k := UpdateSprite(w[k], gravity, dt, m).sprite];
    assert [k, k][1..] == [k];
    assert SceneUpdate(w1, [k], gravity, dt, m).world == SceneUpdate(w1[k := UpdateSprite(w1[k], gravity, dt, m).sprite], [], gravity, dt, m).world;
  }
}

=== FILE: sprites.dfy ===
/**
 * Sprites: the record the scene holds, the defaults its constructor fills
 * in, the per-frame motion integration, and the sprite's own update
 * (motion, animation, click test).
 */
module Sprites {
  import opened Wrappers
  import opened Geometry
  import opened Input
  import opened Animation

  /**
   * The downward acceleration every body starts with, in pixels per second
   * squared. The engine exposes it as a settable field, so every operation
   * below takes the current value as its `gravity` parameter.
   */
  const DefaultGravity: real := 600.0

  /** Mass a sprite gets when none (or zero) is configured. */
  const DefaultMass: real := 1.0

  /** Restitution a sprite gets when none (or zero) is configured. */
  const DefaultRestitution: real := 0.8

  /**
   * A sprite as far as the engine's logic sees it: its box, its motion
   * state and material, its animation, and whether it has a click handler.
   */
  datatype Sprite = Sprite(
    x: real, y: real, width: real, height: real,
    physicsEnabled: bool,
    vx: real, vy: real, ax: real, ay: real,
    mass: real, restitution: real,
    anim: Anim,
    clickable: bool)
  {
    function Bounds(): Rect { Rect(x, y, width, height) }
  }

  /** The options a sprite is created from; `None` is an option left out. */
  datatype SpriteOptions = SpriteOptions(
    x: Option<real>, y: Option<real>, width: Option<real>, height: Option<real>,
    physicsEnabled: bool,
    vx: Option<real>, vy: Option<real>, ax: Option<real>, ay: Option<real>,
    mass: Option<real>, restitution: Option<real>,
    frames: Option<nat>, frameSpeed: Option<real>,
    clickable: bool)

  /** `v` is what `option || fallback` gives: a set, nonzero option itself, otherwise the fallback. */
  predicate Configured(o: Option<real>, fallback: real, v: real) {
    (o.Some? && o.value != 0.0 ==> v == o.value) && (o.None? || o.value == 0.0 ==> v == fallback)
  }

  /** JavaScript's `option || fallback` on a number: a missing option and 0 both give the fallback. */
  function OrDefault(o: Option<real>, fallback: real): (r: real)
    ensures Configured(o, fallback, r)
    ensures r == 0.0 ==> fallback == 0.0
  {
    match o
    case Some(v) => if v == 0.0 then fallback else v
    case None => fallback
  }

  /**
   * The constructor. Every missing or zero number takes its default, the
   * size falls back to the texture's. In particular no sprite is ever
   * static (mass 0) or perfectly inelastic (restitution 0): those values
   * are replaced by 1 and 0.8.
   */
  function NewSprite(o: SpriteOptions, textureWidth: real, textureHeight: real): (s: Sprite)
    ensures s.mass != 0.0 && s.restitution != 0.0
    ensures Configured(o.mass, DefaultMass, s.mass) && Configured(o.restitution, DefaultRestitution, s.restitution)
    ensures o.mass.None? || o.mass.value >= 0.0 ==> s.mass > 0.0
    ensures o.mass.Some? && o.mass.value != 0.0 ==> s.mass == o.mass.value
    ensures o.restitution.Some? && o.restitution.value != 0.0 ==> s.restitution == o.restitution.value
    ensures Configured(o.x, 0.0, s.x) && Configured(o.y, 0.0, s.y)
    ensures Configured(o.width, textureWidth, s.width) && Configured(o.height, textureHeight, s.height)
    ensures Configured(o.vx, 0.0, s.vx) && Configured(o.vy, 0.0, s.vy)
    ensures Configured(o.ax, 0.0, s.ax) && Configured(o.ay, 0.0, s.ay)
    ensures Configured(o.frameSpeed, 0.0, s.anim.frameSpeed) && s.anim.frameCount == o.frames
    ensures s.anim.current == Frame(0) && s.anim.timer == 0.0
    ensures s.physicsEnabled == o.physicsEnabled && s.clickable == o.clickable
  {
    Sprite(
      OrDefault(o.x, 0.0), OrDefault(o.y, 0.0),
      OrDefault(o.width, textureWidth), OrDefault(o.height, textureHeight),
      o.physicsEnabled,
      OrDefault(o.vx, 0.0), OrDefault(o.vy, 0.0), OrDefault(o.ax, 0.0), OrDefault(o.ay, 0.0),
      OrDefault(o.mass, DefaultMass), OrDefault(o.restitution, DefaultRestitution),
      NewAnim(o.frames, o.frameSpeed),
      o.clickable)
  }

  /** Position and velocity along one axis. */
  datatype Motion = Motion(pos: real, vel: real)

  /** One step along one axis: the velocity gains `acc * dt` first, then the position moves by the new velocity. */
  function MotionStep(m: Motion, acc: real, dt: real): Motion {
    var v := m.vel + acc * dt;
    Motion(m.pos + v * dt, v)
  }

  /** `k` steps along one axis. */
  function MotionSteps(m: Motion, acc: real, dt: real, k: nat): Motion
    decreases k
  {
    if k == 0 then m else MotionStep(MotionSteps(m, acc, dt, k - 1), acc, dt)
  }

  /**
   * One integration step of `dt` seconds for a sprite taking part in
   * physics: each axis takes a `MotionStep`, with gravity added to the
   * vertical acceleration. Other sprites do not move.
   */
  function Integrate(s: Sprite, gravity: real, dt: real): (r: Sprite)
    ensures !s.physicsEnabled ==> r == s
    ensures r == s.(x := r.x, y := r.y, vx := r.vx, vy := r.vy)
    ensures s.physicsEnabled ==> r.vx == s.vx + s.ax * dt && r.vy == s.vy + (s.ay + gravity) * dt
    ensures s.physicsEnabled ==> r.x == s.x + r.vx * dt && r.y == s.y + r.vy * dt
  {
    if s.physicsEnabled then
      var h := MotionStep(Motion(s.x, s.vx), s.ax, dt);
      var v := MotionStep(Motion(s.y, s.vy), s.ay + gravity, dt);
      s.(vx := h.vel, vy := v.vel, x := h.pos, y := v.pos)
    else s
  }

  /** `k` integration steps of the same length. */
  function IntegrateSteps(s: Sprite, gravity: real, dt: real, k: nat): Sprite
    decreases k
  {
    if k == 0 then s else Integrate(IntegrateSteps(s, gravity, dt, k - 1), gravity, dt)
  }

  /** Velocity after `n` steps of length `dt` from `v0` under constant acceleration `a`. */
  function VelocityAfter(v0: real, a: real, dt: real, n: real): real {
    v0 + n * a * dt
  }

  /** Position after `n` steps under the velocity-first rule: the sum of the `n` velocities, times `dt`. */
  function PositionAfter(x0: real, v0: real, a: real, dt: real, n: real): real {
    x0 + n * v0 * dt + a * dt * dt * n * (n + 1.0) / 2.0
  }

  /** Repeated steps along one axis follow the closed form of constant acceleration. */
  lemma {:induction false} MotionClosedForm(m: Motion, acc: real, dt: real, k: nat)
    ensures MotionSteps(m, acc, dt, k) ==
      Motion(PositionAfter(m.pos, m.vel, acc, dt, k as real), VelocityAfter(m.vel, acc, dt, k as real))
    decreases k
  {
    if k > 0 {
      var p := MotionSteps(m, acc, dt, k - 1);
      MotionClosedForm(m, acc, dt, k - 1);
      var j := (k - 1) as real;
      assert k as real == j + 1.0;
      ClosedFormStep(m.pos, m.vel, acc, dt, j, p.pos, p.vel);
    }
  }

  /** One axis of the inductive step of the closed form. */
  lemma ClosedFormStep(x0: real, v0: real, a: real, dt: real, m: real, x: real, v: real)
    requires v == VelocityAfter(v0, a, dt, m)
    requires x == PositionAfter(x0, v0, a, dt, m)
    ensures v + a * dt == VelocityAfter(v0, a, dt, m + 1.0)
    ensures x + (v + a * dt) * dt == PositionAfter(x0, v0, a, dt, m + 1.0)
  {
    var n := m + 1.0;
    calc {
      x + (v + a * dt) * dt;
    ==
      x0 + m * v0 * dt + a * dt * dt * m * n / 2.0 + (v0 + n * a * dt) * dt;
    ==
      x0 + n * v0 * dt + a * dt * dt * (m * n / 2.0 + n);
    ==
      x0 + n * v0 * dt + a * dt * dt * n * (n + 1.0) / 2.0;
    }
  }

  /** Integrating a sprite `k` times moves each axis independently, `k` motion steps each. */
  lemma {:induction false} IntegrateStepsByAxis(s: Sprite, gravity: real, dt: real, k: nat)
    requires s.physicsEnabled
    ensures var h := MotionSteps(Motion(s.x, s.vx), s.ax, dt, k);
      var v := MotionSteps(Motion(s.y, s.vy), s.ay + gravity, dt, k);
      IntegrateSteps(s, gravity, dt, k) == s.(x := h.pos, vx := h.vel, y := v.pos, vy := v.vel)
    decreases k
  {
    if k > 0 {
      IntegrateStepsByAxis(s, gravity, dt, k - 1);
    }
  }

  /**
   * Integration has no hidden state: after `k` equal steps the velocity
   * and position are the closed forms of constant acceleration under the
   * velocity-first rule, and nothing else about the sprite has changed.
   */
  lemma IntegrateClosedForm(s: Sprite, gravity: real, dt: real, k: nat)
    requires s.physicsEnabled
    ensures var n := k as real;
      IntegrateSteps(s, gravity, dt, k) == s.(
        x := PositionAfter(s.x, s.vx, s.ax, dt, n), vx := VelocityAfter(s.vx, s.ax, dt, n),
        y := PositionAfter(s.y, s.vy, s.ay + gravity, dt, n), vy := VelocityAfter(s.vy, s.ay + gravity, dt, n))
  {
    IntegrateStepsByAxis(s, gravity, dt, k);
    MotionClosedForm(Motion(s.x, s.vx), s.ax, dt, k);
    MotionClosedForm(Motion(s.y, s.vy), s.ay + gravity, dt, k);
  }

  /** The outcome of a sprite's own update: the sprite, and whether its click handler ran. */
  datatype SpriteStep = SpriteStep(sprite: Sprite, clicked: bool)

  /**
   * A sprite's own per-frame update: it integrates its motion, steps its
   * animation, and runs its click handler when this frame carries a click
   * inside its box at the box's NEW position (edges included).
   */
  function UpdateSprite(s: Sprite, gravity: real, dt: real, m: Mouse): (r: SpriteStep)
    ensures r.sprite.width == s.width && r.sprite.height == s.height && r.sprite.mass == s.mass
    ensures r.sprite.physicsEnabled == s.physicsEnabled
    ensures r.sprite.x == Integrate(s, gravity, dt).x && r.sprite.y == Integrate(s, gravity, dt).y
    ensures r.sprite.anim == Step(s.anim, dt)
    ensures r.sprite == Integrate(s, gravity, dt).(anim := Step(s.anim, dt))
    ensures r.clicked <==> s.clickable && m.click && Contains(r.sprite.Bounds(), m.x, m.y)
    ensures !m.click ==> !r.clicked
  {
    var moved := Integrate(s, gravity, dt);
    var animated := moved.(anim := Step(s.anim, dt));
    SpriteStep(animated, s.clickable && m.click && Contains(animated.Bounds(), m.x, m.y))
  }
}

=== FILE: textfield.dfy ===
/**
 * The text-field widget: a string with a cursor, edited by Backspace, the
 * arrow keys and character keys, with a length limit, and a handled set that
 * makes each held key act once until it is released.
 */
module TextField {
  import opened Wrappers
  import opened Geometry
  import opened Input

  /** The limit a field gets when none (or zero) is configured. */
  const DefaultMaxLength: int := 20

  /** Seconds the caret stays in one phase of its blink. */
  const BlinkPeriod: real := 0.5

  /** JavaScript's `slice(from, to)` on non-negative bounds: both clamp to the length; a reversed range is empty. */
  function Slice(s: string, from: nat, to: nat): (r: string)
    ensures from <= to <= |s| ==> r == s[from..to]
    ensures |r| <= |s|
  {
    var lo := if from < |s| then from else |s|;
    var hi := if to < |s| then to else |s|;
    if lo <= hi then s[lo..hi] else []
  }

  predicate StartsWith(s: string, prefix: string) {
    |prefix| <= |s| && s[..|prefix|] == prefix
  }

  /** JavaScript's `s.replace(pattern, '')` with a string pattern: the first occurrence only is removed. */
  function RemoveFirst(s: string, pattern: string): (r: string)
    ensures StartsWith(s, pattern) ==> r == s[|pattern|..]
    ensures r == s || |r| + |pattern| == |s|
    ensures |s| < |pattern| ==> r == s
    decreases |s|
  {
    if |s| < |pattern| then s
    else if s[..|pattern|] == pattern then s[|pattern|..]
    else [s[0]] + RemoveFirst(s[1..], pattern)
  }

  /** A string in which the pattern cannot start anywhere, because its first letter never appears. */
  lemma {:induction false} RemoveFirstAbsent(s: string, pattern: string)
    requires |pattern| > 0
    requires forall i :: 0 <= i < |s| ==> s[i] != pattern[0]
    ensures RemoveFirst(s, pattern) == s
    decreases |s|
  {
    if |s| >= |pattern| {
      assert s[..|pattern|][0] == s[0];
      RemoveFirstAbsent(s[1..], pattern);
      assert [s[0]] + s[1..] == s;
    }
  }

  /** The pattern occurs in `s` starting at index `i`. */
  predicate OccursAt(s: string, pattern: string, i: nat) {
    i + |pattern| <= |s| && s[i..i + |pattern|] == pattern
  }

  /** Dropping the first character moves every occurrence one place left. */
  lemma OccursShift(s: string, pattern: string, j: nat)
    requires |s| > 0
    ensures OccursAt(s[1..], pattern, j) <==> OccursAt(s, pattern, j + 1)
  {
    if j + 1 + |pattern| <= |s| {
      assert s[1..][j..j + |pattern|] == s[j + 1..j + 1 + |pattern|];
    }
  }

  /** `replace` removes the first occurrence of the pattern and keeps everything around it. */
  lemma {:induction false} RemoveFirstAt(s: string, pattern: string, i: nat)
    requires OccursAt(s, pattern, i)
    requires forall j :: 0 <= j < i ==> !OccursAt(s, pattern, j)
    ensures RemoveFirst(s, pattern) == s[..i] + s[i + |pattern|..]
    decreases i
  {
    if i == 0 {
      assert s[..|pattern|] == pattern;
    } else {
      assert !OccursAt(s, pattern, 0);
      var t := s[1..];
      OccursShift(s, pattern, i - 1);
      forall j | 0 <= j < i - 1
        ensures !OccursAt(t, pattern, j)
      {
        OccursShift(s, pattern, j);
      }
      assert s[..|pattern|] != pattern by {
        assert s[..|pattern|] == s[0..0 + |pattern|];
      }
      calc {
        RemoveFirst(s, pattern);
      ==
        [s[0]] + RemoveFirst(t, pattern);
      == { RemoveFirstAt(t, pattern, i - 1); }
        [s[0]] + (t[..i - 1] + t[i - 1 + |pattern|..]);
      == { assert [s[0]] + t[..i - 1] == s[..i]; }
        s[..i] + t[i - 1 + |pattern|..];
      == { assert t[i - 1 + |pattern|..] == s[i + |pattern|..]; }
        s[..i] + s[i + |pattern|..];
      }
    }
  }

  /** A string in which the pattern occurs nowhere is left unchanged by `replace`. */
  lemma {:induction false} RemoveFirstNowhere(s: string, pattern: string)
    requires forall j :: 0 <= j <= |s| ==> !OccursAt(s, pattern, j)
    ensures RemoveFirst(s, pattern) == s
    decreases |s|
  {
    if |s| >= |pattern| {
      assert !OccursAt(s, pattern, 0);
      var t := s[1..];
      forall j | 0 <= j <= |t|
        ensures !OccursAt(t, pattern, j)
      {
        OccursShift(s, pattern, j);
      }
      RemoveFirstNowhere(t, pattern);
      assert [s[0]] + t == s;
    }
  }

  /** None of the named codes starts like a letter or digit code. */
  lemma NamedCodesAreDistinct()
    ensures !StartsWith("Backspace", "Key") && !StartsWith("Backspace", "Digit")
    ensures !StartsWith("ArrowLeft", "Key") && !StartsWith("ArrowLeft", "Digit")
    ensures !StartsWith("ArrowRight", "Key") && !StartsWith("ArrowRight", "Digit")
    ensures !StartsWith("Space", "Key") && !StartsWith("Space", "Digit")
    ensures !StartsWith("Digit5", "Key")
  {
    assert "Backspace"[0] != "Key"[0] && "Backspace"[0] != "Digit"[0];
    assert "ArrowLeft"[0] != "Key"[0] && "ArrowLeft"[0] != "Digit"[0];
    assert "ArrowRight"[0] != "Key"[0] && "ArrowRight"[0] != "Digit"[0];
    assert "Space"[0] != "Key"[0] && "Space"[0] != "Digit"[0];
    assert "Digit5"[0] != "Key"[0];
  }

  /** The codes that insert text: letter keys, digit keys and the space bar. */
  predicate IsInsertKey(code: string) {
    StartsWith(code, "Key") || StartsWith(code, "Digit") || code == "Space"
  }

  /**
   * The shape of every code a browser reports for a letter or digit key:
   * `Key` plus one letter, `Digit` plus one decimal digit.
   */
  predicate BrowserCode(code: string) {
    && (StartsWith(code, "Key") ==> |code| == 4)
    && (StartsWith(code, "Digit") ==> |code| == 6 && '0' <= code[5] <= '9')
  }

  /**
   * How a code is turned into inserted text. `AsWritten` is the field's
   * own rule, which removes `Key` from the code and so keeps a digit code
   * whole; `Intended` inserts the one character the key stands for.
   */
  datatype Keymap = AsWritten | Intended

  function InsertedText(km: Keymap, code: string): (r: string)
    requires IsInsertKey(code)
    ensures code == "Space" ==> r == " "
    ensures StartsWith(code, "Key") ==> r == code[3..]
    ensures km == Intended && StartsWith(code, "Digit") ==> r == code[5..]
  {
    NamedCodesAreDistinct();
    match km
    case AsWritten =>
      if code == "Space" then " " else RemoveFirst(code, "Key")
    case Intended =>
      if StartsWith(code, "Key") then code[3..]
      else if StartsWith(code, "Digit") then code[5..]
      else " "
  }

  /** What a browser-shaped key inserts under each key map. */
  lemma InsertedTextOf(km: Keymap, code: string)
    requires IsInsertKey(code) && BrowserCode(code)
    ensures StartsWith(code, "Key") ==> InsertedText(km, code) == [code[3]]
    ensures code == "Space" ==> InsertedText(km, code) == " "
    ensures StartsWith(code, "Digit") && km == Intended ==> InsertedText(km, code) == [code[5]]
    ensures StartsWith(code, "Digit") && km == AsWritten ==> InsertedText(km, code) == code
    ensures |InsertedText(km, code)| >= 1
  {
    if StartsWith(code, "Digit") {
      assert code[..5] == "Digit";
      forall i | 0 <= i < |code|
        ensures code[i] != 'K'
      {
        if i < 5 {
          assert code[i] == code[..5][i];
        }
      }
      RemoveFirstAbsent(code, "Key");
    }
  }

  /** The field's text and cursor. */
  datatype Editor = Editor(text: string, cursor: nat) {

    /** The cursor sits between two characters of the text, or at one of its ends. */
    predicate Valid() { cursor <= |text| }
  }

  /**
   * One key acting on the editor. Backspace deletes before the cursor,
   * the arrows move it with clamping, and an insertion key inserts at the
   * cursor and advances it by one, provided the text is still shorter than
   * `maxLength`; every other code leaves the editor alone.
   */
  function ApplyKey(e: Editor, code: string, maxLength: int, km: Keymap): (r: Editor)
    ensures e.Valid() && BrowserCode(code) ==> r.Valid()
    ensures code != "Backspace" && !IsInsertKey(code) ==> r.text == e.text
    ensures code != "ArrowLeft" && code != "ArrowRight" && !IsInsertKey(code) && code != "Backspace" ==> r == e
    ensures IsInsertKey(code) && |e.text| >= maxLength ==> r == e
  {
    NamedCodesAreDistinct();
    if code == "Backspace" then
      if e.cursor > 0 then Editor(Slice(e.text, 0, e.cursor - 1) + Slice(e.text, e.cursor, |e.text|), e.cursor - 1)
      else e
    else if code == "ArrowLeft" then
      Editor(e.text, if e.cursor >= 1 then e.cursor - 1 else 0)
    else if code == "ArrowRight" then
      Editor(e.text, if |e.text| < e.cursor + 1 then |e.text| else e.cursor + 1)
    else if IsInsertKey(code) then
      if |e.text| < maxLength then
        var ins := InsertedText(km, code);
        assert e.Valid() && BrowserCode(code) ==> |ins| >= 1 by {
          if e.Valid() && BrowserCode(code) { InsertedTextOf(km, code); }
        }
        Editor(Slice(e.text, 0, e.cursor) + ins + Slice(e.text, e.cursor, |e.text|), e.cursor + 1)
      else e
    else e
  }

  /** Backspace at the start of the text does nothing. */
  lemma BackspaceAtStart(e: Editor, maxLength: int, km: Keymap)
    requires e.cursor == 0
    ensures ApplyKey(e, "Backspace", maxLength, km) == e
  {
  }

  /**
   * Backspace elsewhere removes exactly the character before the cursor:
   * the characters before it keep their places, those after it move one
   * place left, and the cursor follows.
   */
  lemma BackspaceDeletesOne(e: Editor, maxLength: int, km: Keymap)
    requires e.Valid() && e.cursor > 0
    ensures var r := ApplyKey(e, "Backspace", maxLength, km);
      && r.cursor == e.cursor - 1
      && |r.text| == |e.text| - 1
      && (forall i :: 0 <= i < e.cursor - 1 ==> r.text[i] == e.text[i])
      && (forall i :: e.cursor - 1 <= i < |r.text| ==> r.text[i] == e.text[i + 1])
  {
  }

  /** ArrowLeft moves the cursor one place left, but never below zero. */
  lemma ArrowLeftClamps(e: Editor, maxLength: int, km: Keymap)
    ensures var r := ApplyKey(e, "ArrowLeft", maxLength, km);
      && r.text == e.text
      && (e.cursor > 0 ==> r.cursor + 1 == e.cursor)
      && (e.cursor == 0 ==> r.cursor == 0)
  {
  }

  /** ArrowRight moves the cursor one place right, but never past the end of the text. */
  lemma ArrowRightClamps(e: Editor, maxLength: int, km: Keymap)
    requires e.Valid()
    ensures var r := ApplyKey(e, "ArrowRight", maxLength, km);
      && r.text == e.text
      && r.cursor <= |r.text|
      && (e.cursor < |e.text| ==> r.cursor == e.cursor + 1)
      && (e.cursor == |e.text| ==> r.cursor == e.cursor)
  {
  }

  /** The arrows undo each other away from the clamped ends. */
  lemma ArrowsInverse(e: Editor, maxLength: int, km: Keymap)
    requires e.Valid()
    ensures e.cursor < |e.text| ==> ApplyKey(ApplyKey(e, "ArrowRight", maxLength, km), "ArrowLeft", maxLength, km) == e
    ensures e.cursor > 0 ==> ApplyKey(ApplyKey(e, "ArrowLeft", maxLength, km), "ArrowRight", maxLength, km) == e
  {
  }

  /** With room left, an insertion key puts its text at the cursor and moves the cursor by one. */
  lemma InsertAtCursor(e: Editor, code: string, maxLength: int, km: Keymap)
    requires e.Valid() && IsInsertKey(code) && |e.text| < maxLength
    ensures var r := ApplyKey(e, code, maxLength, km);
      && r.text == e.text[..e.cursor] + InsertedText(km, code) + e.text[e.cursor..]
      && r.cursor == e.cursor + 1
  {
    NamedCodesAreDistinct();
    assert Slice(e.text, 0, e.cursor) == e.text[..e.cursor];
    assert Slice(e.text, e.cursor, |e.text|) == e.text[e.cursor..];
  }

  /**
   * Backspace undoes the insertion of one character: letter keys and the
   * space bar under either key map, and digit keys under the intended one.
   */
  lemma BackspaceUndoesInsert(e: Editor, code: string, maxLength: int, km: Keymap)
    requires e.Valid() && IsInsertKey(code) && BrowserCode(code) && |e.text| < maxLength
    requires km == Intended || !StartsWith(code, "Digit")
    ensures ApplyKey(ApplyKey(e, code, maxLength, km), "Backspace", maxLength, km) == e
  {
    InsertedTextOf(km, code);
    InsertAtCursor(e, code, maxLength, km);
    var c := e.cursor;
    var ins := InsertedText(km, code);
    var mid := ApplyKey(e, code, maxLength, km);
    assert |ins| == 1 && mid.cursor == c + 1;
    assert mid.text == e.text[..c] + ins + e.text[c..];
    assert mid.text[..c] == e.text[..c];
    assert mid.text[c + 1..] == e.text[c..];
    var back := ApplyKey(mid, "Backspace", maxLength, km);
    assert back == Editor(Slice(mid.text, 0, c) + Slice(mid.text, c + 1, |mid.text|), c);
    assert e.text[..c] + e.text[c..] == e.text;
  }

  /** Letter keys and the space bar insert one character, so the length limit is never exceeded. */
  lemma LetterKeepsLimit(e: Editor, code: string, maxLength: int, km: Keymap)
    requires e.Valid() && |e.text| <= maxLength
    requires code == "Space" || (StartsWith(code, "Key") && BrowserCode(code))
    ensures |ApplyKey(e, code, maxLength, km).text| <= maxLength
  {
    NamedCodesAreDistinct();
    InsertedTextOf(km, code);
  }

  /** Under the intended key map every browser-shaped key keeps the text within the limit. */
  lemma IntendedKeepsLimit(e: Editor, code: string, maxLength: int)
    requires e.Valid() && |e.text| <= maxLength && BrowserCode(code)
    ensures |ApplyKey(e, code, maxLength, Intended).text| <= maxLength
  {
    if IsInsertKey(code) { InsertedTextOf(Intended, code); }
  }

  /**
   * A digit key as written inserts its whole code: pressing Digit5 in an
   * empty field limited to one character leaves the six characters
   * "Digit5" in it.
   */
  lemma DigitInsertsCode()
    ensures ApplyKey(Editor("", 0), "Digit5", 1, AsWritten) == Editor("Digit5", 1)
    ensures |ApplyKey(Editor("", 0), "Digit5", 1, AsWritten).text| > 1
  {
    NamedCodesAreDistinct();
    InsertedTextOf(AsWritten, "Digit5");
  }

  /**
   * A bare `Key` code (one no browser sends) inserts nothing but still
   * advances the cursor, so the cursor then lies past the end of the text.
   */
  lemma BareKeyCodeBreaksCursor()
    ensures !ApplyKey(Editor("", 0), "Key", 20, AsWritten).Valid()
  {
    assert RemoveFirst("Key", "Key") == "";
  }

  /** The editor after the codes act one after another, in order. */
  function ApplyKeys(e: Editor, codes: seq<string>, maxLength: int, km: Keymap): (r: Editor)
    ensures e.Valid() && (forall c :: c in codes ==> BrowserCode(c)) ==> r.Valid()
    ensures (forall c :: c in codes ==> c != "Backspace" && !IsInsertKey(c)) ==> r.text == e.text
    decreases |codes|
  {
    if |codes| == 0 then e
    else
      assert forall c :: c in codes[1..] ==> c in codes;
      ApplyKeys(ApplyKey(e, codes[0], maxLength, km), codes[1..], maxLength, km)
  }

  /** Acting on two runs of codes is acting on the first, then on the second. */
  lemma {:induction false} ApplyKeysAppend(e: Editor, a: seq<string>, b: seq<string>, maxLength: int, km: Keymap)
    ensures ApplyKeys(e, a + b, maxLength, km) == ApplyKeys(ApplyKeys(e, a, maxLength, km), b, maxLength, km)
    decreases |a|
  {
    if |a| == 0 {
      assert a + b == b;
    } else {
      assert (a + b)[0] == a[0] && (a + b)[1..] == a[1..] + b;
      ApplyKeysAppend(ApplyKey(e, a[0], maxLength, km), a[1..], b, maxLength, km);
    }
  }

  /** `xs` is `ys` with some elements left out: its elements occur in `ys` in the same order. */
  predicate IsSubsequence<T(==)>(xs: seq<T>, ys: seq<T>)
    decreases |ys|
  {
    if |xs| == 0 then true
    else if |ys| == 0 then false
    else if xs[0] == ys[0] then IsSubsequence(xs[1..], ys[1..])
    else IsSubsequence(xs, ys[1..])
  }

  /** The outcome of visiting the pressed codes once: the editor, the handled set, and the codes that acted. */
  datatype KeyPassResult = KeyPassResult(editor: Editor, handled: set<string>, acted: seq<string>)

  /**
   * One visit of the key codes in `order` by a focused field: a code that
   * is pressed and not yet handled is marked handled and acts; any other
   * code is skipped.
   */
  function KeyPass(e: Editor, order: seq<string>, down: set<string>, handled: set<string>, maxLength: int, km: Keymap): (r: KeyPassResult)
    ensures forall c :: c in r.handled <==> c in handled || (c in order && c in down)
    ensures forall c :: c in r.acted <==> c in order && c in down && c !in handled
    ensures forall i, j :: 0 <= i < j < |r.acted| ==> r.acted[i] != r.acted[j]
    ensures IsSubsequence(r.acted, order)
    ensures r.editor == ApplyKeys(e, r.acted, maxLength, km)
    ensures (forall c :: c !in r.acted) ==> r.editor == e
    ensures e.Valid() && (forall c :: c in order ==> BrowserCode(c)) ==> r.editor.Valid()
    decreases |order|
  {
    if |order| == 0 then KeyPassResult(e, handled, [])
    else
      var code := order[0];
      assert forall c :: c in order <==> c == code || c in order[1..];
      if code in down && code !in handled then
        var rest := KeyPass(ApplyKey(e, code, maxLength, km), order[1..], down, handled + {code}, maxLength, km);
        var acted := [code] + rest.acted;
        assert code !in rest.acted;
        assert acted[0] == code && acted[1..] == rest.acted;
        assert forall c :: c in acted <==> c == code || c in rest.acted;
        KeyPassResult(rest.editor, rest.handled, acted)
      else
        var rest := KeyPass(e, order[1..], down, handled, maxLength, km);
        assert |rest.acted| > 0 ==> rest.acted[0] != code;
        rest
  }

  /**
   * A held key acts once: visiting the same keyboard again with the
   * handled set the first visit left acts on nothing and changes nothing.
   */
  lemma HeldKeyActsOnce(e: Editor, k: Keyboard, handled: set<string>, maxLength: int, km: Keymap)
    ensures var first := KeyPass(e, k.order, k.down, handled, maxLength, km);
      var second := KeyPass(first.editor, k.order, k.down, first.handled, maxLength, km);
      && (forall c :: c !in second.acted)
      && second.editor == first.editor
      && second.handled == first.handled
  {
    var first := KeyPass(e, k.order, k.down, handled, maxLength, km);
    var second := KeyPass(first.editor, k.order, k.down, first.handled, maxLength, km);
    assert forall c :: c !in second.acted;
  }

  /** Once released and pressed again, a handled key acts on the next visit. */
  lemma ReleasedKeyActsAgain(e: Editor, k: Keyboard, handled: set<string>, code: string, maxLength: int, km: Keymap)
    requires code in handled
    ensures var up := KeyUp(k, handled, code);
      var again := KeyDown(up.0, code);
      code in KeyPass(e, again.order, again.down, up.1, maxLength, km).acted
  {
  }

  /** The widget: its box, the editor, the length limit, focus, and the caret's blink state. */
  datatype TextInput = TextInput(bounds: Rect, editor: Editor, maxLength: int, focused: bool, blinkTimer: real, showCursor: bool)

  /** A new field: empty, unfocused, caret phase visible; a missing or zero limit becomes the default. */
  function NewTextInput(bounds: Rect, maxLength: Option<int>): (t: TextInput)
    ensures t.bounds == bounds && t.editor == Editor("", 0) && t.editor.Valid() && !t.focused
    ensures t.blinkTimer == 0.0 && t.showCursor
    ensures t.maxLength != 0
    ensures maxLength.Some? && maxLength.value != 0 ==> t.maxLength == maxLength.value
    ensures maxLength.None? || maxLength.value == 0 ==> t.maxLength == DefaultMaxLength
  {
    var limit := maxLength.GetOr(0);
    TextInput(bounds, Editor("", 0), if limit == 0 then DefaultMaxLength else limit, false, 0.0, true)
  }

  /** The result of a field's per-frame update: the field, the handled set, and the codes that acted. */
  datatype FieldStep = FieldStep(input: TextInput, handled: set<string>, acted: seq<string>)

  /**
   * The per-frame update of a field: a click moves focus to or away from
   * it, a focused field visits the keys, then the caret blinks (when
   * focused) or is hidden.
   */
  function Update(t: TextInput, m: Mouse, k: Keyboard, handled: set<string>, dt: real, km: Keymap): (r: FieldStep)
    ensures r.input.bounds == t.bounds && r.input.maxLength == t.maxLength
    ensures m.click ==> (r.input.focused <==> Contains(t.bounds, m.x, m.y))
    ensures !m.click ==> r.input.focused == t.focused
    ensures !r.input.focused ==> r.input.editor == t.editor && r.handled == handled && r.acted == [] && !r.input.showCursor
    ensures !r.input.focused ==> r.input.blinkTimer == t.blinkTimer
    ensures r.input.focused ==> (var p := KeyPass(t.editor, k.order, k.down, handled, t.maxLength, km);
      r.input.editor == p.editor && r.handled == p.handled && r.acted == p.acted)
    ensures r.input.focused ==> r.input.editor == ApplyKeys(t.editor, r.acted, t.maxLength, km)
    ensures t.editor.Valid() && (forall c :: c in k.order ==> BrowserCode(c)) ==> r.input.editor.Valid()
    ensures r.input.focused && t.blinkTimer + dt > BlinkPeriod ==> r.input.showCursor == !t.showCursor && r.input.blinkTimer == 0.0
    ensures r.input.focused && t.blinkTimer + dt <= BlinkPeriod ==> r.input.showCursor == t.showCursor && r.input.blinkTimer == t.blinkTimer + dt
  {
    var focused := if m.click then Contains(t.bounds, m.x, m.y) else t.focused;
    var pass := if focused then KeyPass(t.editor, k.order, k.down, handled, t.maxLength, km)
                else KeyPassResult(t.editor, handled, []);
    var t1 := t.(focused := focused, editor := pass.editor);
    var t2 :=
      if focused then
        var timer := t.blinkTimer + dt;
        if timer > BlinkPeriod then t1.(showCursor := !t.showCursor, blinkTimer := 0.0)
        else t1.(blinkTimer := timer)
      else t1.(showCursor := false);
    FieldStep(t2, pass.handled, pass.acted)
  }
}

=== FILE: widgets.dfy ===
/** The push button: a box whose look follows the mouse. */
module Widgets {
  import opened Geometry
  import opened Input

  /** The three looks of a button. */
  datatype ButtonLook = Idle | Hover | Down

  datatype Button = Button(bounds: Rect, visible: bool, look: ButtonLook)

  /** A new button starts idle. */
  function NewButton(bounds: Rect, visible: bool): (b: Button)
    ensures b.look == Idle && b.bounds == bounds && b.visible == visible
  {
    Button(bounds, visible, Idle)
  }

  /** The outcome of a button's per-frame update: the button, and whether its click handler ran. */
  datatype ButtonStep = ButtonStep(button: Button, clicked: bool)

  /**
   * The per-frame update of a button. A hidden button keeps its look and
   * ignores the mouse. A visible one is pressed while a click lands on it
   * or the button is held over it, hovered when the mouse is merely over
   * it, and idle otherwise; its handler runs exactly on a click inside.
   */
  function UpdateButton(b: Button, m: Mouse): (r: ButtonStep)
    ensures r.button.bounds == b.bounds && r.button.visible == b.visible
    ensures !b.visible ==> r == ButtonStep(b, false)
    ensures b.visible ==>
      && (r.button.look == Down <==> Contains(b.bounds, m.x, m.y) && (m.click || m.down))
      && (r.button.look == Hover <==> Contains(b.bounds, m.x, m.y) && !m.click && !m.down)
      && (r.button.look == Idle <==> !Contains(b.bounds, m.x, m.y))
    ensures r.clicked <==> b.visible && m.click && Contains(b.bounds, m.x, m.y)
  {
    if !b.visible then ButtonStep(b, false)
    else if m.click && Contains(b.bounds, m.x, m.y) then ButtonStep(b.(look := Down), true)
    else if m.down && Contains(b.bounds, m.x, m.y) then ButtonStep(b.(look := Down), false)
    else if Contains(b.bounds, m.x, m.y) then ButtonStep(b.(look := Hover), false)
    else ButtonStep(b.(look := Idle), false)
  }

  /**
   * The look depends on the mouse only, not on the previous look: two
   * visible buttons over the same box end the frame looking the same.
   */
  lemma LookIsMemoryless(b1: Button, b2: Button, m: Mouse)
    requires b1.visible && b2.visible && b1.bounds == b2.bounds
    ensures UpdateButton(b1, m).button.look == UpdateButton(b2, m).button.look
  {
  }
}

=== FILE: wrappers.dfy ===
/** Optional values, used for constructor options that the caller may leave out. */
module Wrappers {

  datatype Option<+T> = None | Some(value: T) {

    /** The value held, or `default` when there is none. */
    function GetOr(default: T): T {
      match this
      case Some(v) => v
      case None => default
    }
  }
}
